=== FILE: README.md ===
# valfile: schema extraction and run gating, in Dafny

valfile checks a configuration file (JSON, Jsonnet, YAML, TOML, HCL, dotenv) or the process
environment against a Go struct type. It finds the root type in a Go package and collects the
closure of type declarations the root refers to. It checks every collected struct's marshaling
tags for the key of the input format. It then generates, builds and runs a small Go program
that decodes and validates the input, and reads that program's verdict from its output.

This project models the decision logic of `main.go` around the generated program:

| module | file | models |
|---|---|---|
| `GoTypes` | gotypes.dfy | the syntax the walker tells apart, the files and scope objects `findType` searches, `isTypePrimitive` |
| `Closure`, `ClosureProps` | closure.dfy | `traverseTypeIdents` and the closure callback of `run`, as a specification (`Walk`) and as a class holding `typeSpecs`, `typeDefinitions` and `errs` (`ClosureBuilder`) |
| `Tags` | tags.dfy | `checkMarshalingTags` |
| `TagPhase` | tagphase.dfy | the expected tag key per format, `sortedKeys`, the tag-check phase of `run` |
| `FileFormat` | fileformat.dfy | `getFileFormat`, with `filepath.Ext`, `filepath.Base` and the dotenv pattern |
| `CliParams` | params.dfy | the checks of `parseCLIParameters` after flag parsing |
| `Env` | env.dfy | `envToMap` |
| `Outcome` | outcome.dfy | how the generated program's output becomes the result |
| `Run` | run.dfy | `run`: the order in which the phases gate each other and what each reports |
| `ClosureExamples`, `RunExamples` | closure_examples.dfy, run_examples.dfy | concrete closures and runs, including the CLI test cases |

Some modelling choices:

- A package is a sequence of files, each a sequence of scope objects (kind, name, declared type). The sequence is the order in which Go's map iteration over `pkg.Files` and `file.Scope.Objects` happens to yield them; that order is a parameter of the model. `GoTypes.FindTypeIn` is the nested loop of `findType`. `GoTypes.Index` turns the files into a name→declaration map in which the first type object of a name wins, and the walker looks names up in that map.
- The formatter `renderGoType` is an abstract function that may fail.
- The tag libraries (`strconv.Unquote`, `structtag.Parse`, `Tags.Get`) are abstract functions that return a value or an error text.
- Everything `run` obtains from the outside world is a field of `Run.World`:
  - the flag parser's outcome;
  - the parsed package;
  - the outcome of reading the input;
  - the outcome of preparing the workspace;
  - the result of running the program.

The walker re-enters a declaration each time it meets its name, even one already collected. On a
cyclic type it therefore never stops. The model requires the references between the declarations
reachable from the root to be acyclic (`GoTypes.Ranked`, a rank for each ranked name that every
reference from it decreases; names without a rank, such as an unreachable cycle, are unconstrained).
The root needs a rank only once it has rendered, the point from which `run` walks it, so a run
that stops earlier is covered whatever its package (`Run.RankedFor`). Under that
condition it proves what the walk collects and reports. A type reached along two paths is
walked twice: its definition is collected once, but its errors are reported once per path
(`ClosureProps.ClosureContents` states the errors as one message per meeting;
`ClosureExamples.DiamondReportsTwice` shows a concrete case).

Two behaviours of the code worth knowing:

- The walker does not skip a type it has already collected. It re-enters it (main.go:172-173, 509-513), so a cycle reachable from the root through renderable declarations never terminates.
- Non-empty output without the `VALFILE: ` prefix counts as success, with no error (main.go:314-318). `Outcome.UnprefixedOutputSucceeds` states this behaviour.

## Model

| member | source | states |
|---|---|---|
| GoTypes.FindTypeIn | main.go:420-437 | the nested loop returns the first type object with the name, files in order and objects in order within a file, skipping objects of other kinds; it agrees with the name→declaration index |
| GoTypes.IndexFindsFirst | main.go:420-437 | looking a name up in the index gives exactly the first type object with that name |
| GoTypes.FirstTypeFound | main.go:420-437 | nothing is found iff no file has a type object with the name; otherwise the result comes from a type object with the name that no earlier file and no earlier object in its file declares |
| GoTypes.SoleDeclaration | main.go:420-437 | when exactly one object declares the name as a type, the lookup returns that declaration |
| GoTypes.FirstFileWins | main.go:425-434 | a variable with the name is skipped, and of two files declaring the type the first one met wins |
| ClosureExamples.PredeclaredOutsideList | main.go:517-526 | `byte` and `rune` never raise an error; `any` and `error` are not in the list, so undeclared they are reported as undefined types; a declared type named `string` is never collected |
| Closure.ClosureBuilder.constructor | main.go:158-161 | the closure starts as the root alone: its definition first, `typeSpecs` holding only the root, no errors |
| Closure.ClosureBuilder.Visit | main.go:163-183 | the callback updates `typeSpecs`, `typeDefinitions` and `errs`, and answers stop, exactly as the callback specification does on the old state |
| Closure.ClosureBuilder.Traverse | main.go:489-515 | the recursive traversal leaves the builder in the state the walk specification gives, with fields in order, key before value, and chan/func/other nodes not entered |
| ClosureProps.CallbackStep | main.go:163-183 | one callback keeps the closure invariant and stops exactly at names that have an error. It appends exactly that error and adds the name exactly when it is declared, non-primitive, renderable and new |
| ClosureProps.WalkGrows | main.go:489-515 | a walk only appends and keeps the closure invariant: distinct names, `typeSpecs` keys equal to the names of the definitions, each definition the rendering of its declaration. It adds exactly the collected names it meets |
| ClosureProps.WalkGrowsMap | main.go:501-503 | the same for a map: the key's walk then the value's, adding the collected names either meets |
| ClosureProps.WalkGrowsIdent | main.go:504-513 | the same for an identifier: the callback, then the declaration's body unless the callback stopped |
| ClosureProps.WalkFieldsGrows | main.go:497-500 | the same for the walk over a struct's fields in declared order |
| ClosureProps.WalkErrors | main.go:167-179 | every error a walk appends belongs to an identifier it met, and every met identifier that is undefined or unrenderable is reported; primitives never are |
| ClosureProps.WalkFieldsErrors | main.go:497-500 | the same for the walk over a struct's fields |
| ClosureProps.ClosureContents | main.go:158-183 | the root's definition is first. The collected names are the root plus the declared, non-primitive, renderable names met, each once and never primitive. The errors are one message per meeting of a failing identifier, in meeting order, and there are none iff no met identifier has one |
| ClosureProps.WalkErrSeq | main.go:489-515 | a walk appends one error per meeting of an undefined or unrenderable identifier, in the order it meets identifiers, so a name reached along several paths is reported once per path |
| ClosureProps.WalkErrSeqIdent | main.go:504-513 | the same for an identifier: its own error, if any, then the errors of its declaration's body when it is entered |
| ClosureProps.WalkFieldsErrSeq | main.go:497-500 | the same for the walk over a struct's fields in declared order |
| ClosureProps.ErrSeqAppend | main.go:163-183 | the errors of two consecutive sequences of meetings are the first's followed by the second's |
| ClosureProps.WalkOrder | main.go:489-515 | a walk appends to the order exactly the new collected names, in the order the traversal meets identifiers (field order, key before value, a declaration's own references right after its name) |
| ClosureProps.WalkFieldsOrder | main.go:497-500 | the same for the walk over a struct's fields in declared order |
| ClosureProps.ClosureOrder | main.go:158-183 | the closure's names are the root followed by each new collected name at its first meeting in traversal order, and each definition at position i is the rendering of the i-th name's declaration |
| ClosureProps.NewCollectedAppend | main.go:163-183 | meeting two sequences of names one after the other adds the first's new names, then the second's names new after those |
| ClosureExamples.MapSkipsChanAndFunc | main.go:496 | channel and function fields are not entered |
| ClosureExamples.MapKeyThenValue | main.go:501-503 | a map's key type is collected before its value type, through an array element |
| ClosureExamples.KeyBeforeValue | main.go:495-512 | the whole closure of a root with chan, func, map and pointer fields is root, key, value, in that order; the pointer's target is not collected |
| ClosureExamples.DiamondReportsTwice | main.go:163-183 | a type reached by two paths is collected once, but the undefined type inside it is reported twice |
| Tags.CheckMarshalingTags | main.go:439-487 | the loop over fields returns exactly the violations of the fields in order, none for a non-struct |
| Tags.CheckField | main.go:446-485 | one loop iteration appends exactly the messages its field's violations specify, each `continue` ending the iteration |
| Tags.FieldViolationsShape | main.go:457-485 | every message of a field starts with `Type.Field: `. A field has none exactly when its tag is present, unquotes, parses and names the key non-emptily. It has at most two, and two only when unquoting failed |
| Tags.FieldsViolationsEmpty | main.go:445-486 | a field list has no violation iff every field passes |
| Tags.TagViolationsEmptyIff | main.go:439-487 | a declaration passes iff it is not a struct or every field passes |
| Tags.FieldsViolationsNamed | main.go:446-456 | every message of a field list names one of its fields |
| Tags.ViolationsNameAField | main.go:446-456 | every message names the struct and one of its fields (first name, or the type name of an embedded field) |
| Tags.UntaggedFieldsMissing | main.go:457-460 | untagged fields each yield exactly one `missing tag "k"`, in field order |
| Tags.UntaggedStruct | main.go:457-460 | an untagged struct yields one `Type.Field: missing tag "k"` per field, whatever the tag library |
| Tags.ConfigFooMissing | main_test.go:36-45 | `type Config struct { Foo string }` yields exactly `Config.Foo: missing tag "k"` |
| TagPhase.ExpectedTagKey | main.go:193-262 | the key is `env` exactly for environment and dotenv input, `json` exactly for JSON and Jsonnet, `toml`, `yaml`, `hcl` exactly for their formats |
| TagPhase.SortedKeys | main.go:638-644 | every key of the map exactly once, in no fixed order |
| TagPhase.AllViolationsTake | main.go:264-273 | the multiset of violations does not depend on which declaration is checked first |
| TagPhase.ViolationsPermutation | main.go:264-273 | any order naming each collected declaration once yields, as a multiset, the same violations |
| TagPhase.ViolationsInOrderEmpty | main.go:264-273 | the concatenated violations are empty iff every declaration passes |
| TagPhase.CheckAllTags | main.go:264-274 | nothing when tag checking is off. Otherwise it returns the violations of every collected declaration, each checked once, in the order `sortedKeys` gave. Their multiset is fixed, and it is empty iff every declaration passes |
| TagPhase.UntaggedConfigPerFormat | main_test.go:27-75 | an untagged `Config.Foo` is reported under the format's key, `json` for Jsonnet too |
| FileFormat.Ext | main.go:616 | the extension is a suffix of the path that starts with its last dot and holds no slash. It is empty only when no dot follows the last slash |
| FileFormat.ExtOfAppended | main.go:616 | the extension of a path ending in `.ext` is `.ext` |
| FileFormat.BaseOfAppended | main.go:628 | the base of `dir/name` is `name` |
| FileFormat.FormatByExtension | main.go:615-627 | a known extension decides the format, whatever its letter case and the rest of the name |
| FileFormat.DotenvIff | main.go:628-632 | dotenv is chosen iff the extension is unknown and the base name matches `^\.env(\..+)?$` |
| FileFormat.UnsupportedIff | main.go:628-634 | every other path is refused with `unsupported file type: "<base>"` and a newline |
| FileFormat.ByBaseName | main.go:615-634 | behind an unknown extension, the base name alone decides between dotenv and refusal |
| FileFormat.UndottedNotDotenv | main.go:636 | a name not starting with a dot is never a dotenv name |
| FileFormat.DotenvFile | main.go:628-631 | `dir/.env` is dotenv |
| FileFormat.DotenvSuffixFile | main.go:628-636 | `dir/.env.<suffix>` is dotenv for a non-empty suffix without `.`, `/` or newline that is not a known extension |
| FileFormat.GetFileFormat | main.go:615-634 | the format of a file is never the environment, and the only refusal is `unsupported file type` naming the base name |
| FileFormat.DotenvPattern | main.go:636 | a name matches the dotenv pattern iff it is `.env` or `.env.` followed by a non-empty rest holding no newline |
| FileFormat.SettingsEnvRefused | main.go:615-634 | `conf/settings.env` is refused as `settings.env` |
| FileFormat.UpperCaseExtension | main.go:616-625 | `app.YML` is YAML |
| FileFormat.ExtensionBeforeDotenv | main.go:615-627 | `.env.json` is JSON, not dotenv |
| CliParams.CheckParams | main.go:344-359 | parameters pass iff package directory and type name are set and exactly one of `-env` and `-f` is given, and then unchanged. Otherwise the first failing check in the fixed order is reported |
| CliParams.TypeNameRequired | main_test.go:16-26 | `-p dir -env` is refused with `missing type name` |
| CliParams.EitherInputAccepted | main.go:344-359 | `-env` or `-f file` with a directory and type is accepted; neither is `missing input file` |
| Env.Split | main.go:592-597 | an entry splits at its first `=`: key and value joined by `=` give back the entry, and the key holds no `=` |
| Env.SplitJoin | main.go:592-597 | splitting `key=value` with a `=`-free key gives back exactly that key and value, even when the value holds `=` |
| Env.EnvMapKeys | main.go:590-600 | the map's keys are exactly the entries' keys |
| Env.EnvMapLastWins | main.go:596-598 | a key maps to the value of its last entry |
| Env.EnvToMap | main.go:590-600 | the loop builds exactly the map the entries describe |
| Env.EnvExample | main.go:590-600 | `A=1`, `B=x=y`, `A=2` give `A` 2 and `B` `x=y` |
| Outcome.TrimNewlines | main.go:312 | the result is the input minus its trailing newlines: a prefix, not ending in a newline, followed only by newlines |
| Outcome.TrimAppendedNewlines | main.go:312 | trimming removes exactly the newlines appended to text that does not end in one |
| Outcome.Classify | main.go:308-318 | at most one error. A failed run is its own error. An output is an error iff, trimmed, it starts with `VALFILE: `, and the error is the trimmed output minus that prefix |
| Outcome.ReportedMessage | main.go:312-316 | a message printed behind `VALFILE: ` with any trailing newlines comes back unchanged as the only error |
| Outcome.UnprefixedOutputSucceeds | main.go:314-318 | any output not starting with `VALFILE: `, even non-empty, gives no error |
| Outcome.PartialPrefixSucceeds | main.go:312-318 | output that begins like the marker but stops short of it (`VAL` and a newline) gives no error |
| Run.Run | main.go:121-319 | the run stops at the first failing phase in source order, and reports exactly that phase's errors. Those are one message for parameters, format, package, root lookup and rendering, input reading and workspace; all the closure's errors; all tag violations as a multiset; or the program's verdict. It returns no error iff the program ran and reported nothing |
| Run.UndefinedTypesGate | main.go:163-186 | past the closure, no met identifier is undefined or unrenderable. A run stopped there reports one message per meeting of a failing identifier, in meeting order, and at least one |
| Run.TagCheckCoverage | main.go:264-274 | the tag check sees the root and exactly the collected names the walk met |
| Run.TagCheckPassed | main.go:264-274 | a run that reaches the workspace with tag checking on has every collected declaration passing. With tag checking off, the tag phase never stops the run |
| RunExamples.MissingTypeNameRun | main_test.go:16-26 | a run without `-t`, whatever its package and rank, stops at the parameters with `missing type name` |
| RunExamples.CyclicRootMissingInputRun | main.go:344-357 | `-p dir -t Tree` with neither `-f` nor `-env`, over a self-referential `Tree`, is admitted with no rank at all and stops at the parameters with `missing input file` |
| RunExamples.ConfigClosure | main.go:163-166 | a struct whose field is `string` collects only the root and reports nothing |
| RunExamples.ConfigViolations | main_test.go:27-35 | the untagged `Config` has the one violation `Config.Foo: missing tag "env"` |
| RunExamples.MissingEnvTagRun | main_test.go:27-35 | `-t Config -env` with `Foo` untagged stops at the tag check with exactly `Config.Foo: missing tag "env"` |
| RunExamples.UndefinedTypeRun | main.go:167-186 | a field of an undeclared type stops the run before the tag check with `undefined type: Bar` |
| RunExamples.UnreachableCycle | main.go:158-183 | a package that also declares a self-referential type the root does not reach is admitted, and the root's closure is the root alone |
| Run.LoadError | main.go:193-261 | the environment never fails to load; a failed read fails every file format; a failed decode fails only dotenv and Jsonnet; Jsonnet reports under `evaluating Jsonnet: `, dotenv decoding under `parsing dotenv file: `, other reads under `reading input file: ` |

## Left out

- Template loading and rendering (`withTmpl`, `mustRenderSrc`, `mustRenderSrcEnv`, the embedded templates, go.mod, go.sum and vendor archives) are not modelled. This is text generation whose templates are not part of this model.
- `parsePackage` and the Go parser are abstracted as `Run.World`'s `parsed` field: the files' scopes, or the error text. The `parsing package: ` wording and the panic when the directory holds zero or several packages are not modelled.
- Go's map iteration order over files and scope objects is not modelled as random: it is the given order of the sequences, so which of two duplicate declarations wins is fixed by the input.
- `renderGoType` and `go/format` are an abstract, possibly failing function.
- `strconv.Unquote`, `structtag.Parse` and `Tags.Get` are abstract functions. Only their outcomes are modelled: a value or an error text. An unquote failure is modelled as yielding the empty tag content, as Go's `Unquote` does.
- `%q` quoting is modelled as plain double quotes around the tag key and base name; Go's escaping of special characters in them is not modelled.
- `unzipArchive`, `os.MkdirTemp`, the `WriteFile` calls and `os.RemoveAll` are I/O. Their outcome is one optional error text in `Run.World`.
- The file reads, `godotenv.Parse` and Jsonnet evaluation are I/O and foreign parsers. Their outcome is a `Run.InputLoad`.
- The input payload and the environment map are not modelled as inputs of the generated program, because they only feed the templates.
- `Run.Run` does not call `envToMap`, so the panic on an environment entry without `=` is not part of the run. `Env.EnvToMap` models it as a precondition.
- `exec.Command("go", "run", ".")` and `CombinedOutput` are a process. Their outcome is an `Outcome.ExecResult`.
- `flag.FlagSet` parsing is not modelled. Its outcome (the parameters or its error) is an input of `Run.Run`.
- `main` and `os.Exit` are process plumbing and are not modelled.
- Cyclic type references reachable from the root are not modelled. Where the cycle runs only through renderable declarations the walker does not terminate, so a run that reaches the walk (its root has rendered) requires the witness `GoTypes.Ranked` over the declarations it can reach; runs that stop earlier need no rank for the root (`RunExamples.CyclicRootMissingInputRun`). A cycle through a declaration that fails to render does terminate in the code (the callback stops that branch, main.go:175-178), but `GoTypes.Ranked` depends on the package alone and excludes it too. Cycles the root does not reach are admitted (`RunExamples.UnreachableCycle`).
- `filepath.Ext` and `filepath.Base` are modelled for slash-separated paths only. `filepath.Clean` is not modelled.
- `strings.ToLower` is modelled on ASCII letters only.
- Go strings and byte slices are modelled as sequences of characters, one character per byte.
- FileFormat.Base: its contract states only that the result is non-empty and is `/` when it holds a slash. The exact base of a path is stated by `FileFormat.BaseOfAppended` for paths built from a directory and a name.

=== FILE: closure.dfy ===
/**
 * The type-closure walk of `run`: `traverseTypeIdents` driven by the callback that
 * collects the rendered definitions (`typeDefinitions`), the declarations by name
 * (`typeSpecs`) and the "undefined type" errors.
 *
 * `Walk` is the specification (a fold of the callback's state over the traversal);
 * `ClosureBuilder` is the imperative callback and traversal, proved to follow it.
 */
module Closure {
  import opened Wrappers
  import opened GoTypes

  /** `format.Node` over a declaration: its source text, or the formatter's error. */
  type Renderer = TypeSpec -> Result<string, string>

  /**
   * What the callback has built so far. `order` names the entries of `defs`, one to one;
   * it records the order in which names went into `specs`.
   */
  datatype WalkState = WalkState(
    specs: map<string, TypeSpec>,
    defs: seq<string>,
    order: seq<string>,
    errs: seq<string>)

  function UndefinedType(name: string): string {
    "undefined type: " + name
  }

  function RenderingFailed(err: string): string {
    "rendering go type: " + err
  }

  /** The state `run` starts the walk from: only the root, already rendered. */
  function Seed(root: TypeSpec, rootDef: string): WalkState {
    WalkState(map[root.name := root], [rootDef], [root.name], [])
  }

  /** The callback: whether to stop at `name`, and the updated state. */
  function Callback(pkg: Package, render: Renderer, name: string, st: WalkState): (bool, WalkState) {
    if IsPrimitive(name) then (false, st)
    else match FindType(pkg, name)
      case None => (true, st.(errs := st.errs + [UndefinedType(name)]))
      case Some(t) =>
        if t.name in st.specs then (false, st)
        else match render(t)
          case Err(err) => (true, st.(errs := st.errs + [RenderingFailed(err)]))
          case Ok(r) => (false, st.(specs := st.specs[t.name := t],
                                    defs := st.defs + [r],
                                    order := st.order + [t.name]))
  }

  /** The state after `traverseTypeIdents(e, callback)`. */
  function Walk(pkg: Package, render: Renderer, ghost rank: map<string, nat>, ghost bound: nat,
                e: TypeExpr, st: WalkState): WalkState
    requires Ranked(pkg, rank) && Below(pkg, rank, e, bound)
    decreases bound, e, 1
  {
    match e
    case Struct(fs) => WalkFields(pkg, render, rank, bound, e, fs, st)
    case Array(t) => Walk(pkg, render, rank, bound, t, st)
    case Map(k, v) =>
      Walk(pkg, render, rank, bound, v, Walk(pkg, render, rank, bound, k, st))
    case Ident(n) =>
      var (stop, st') := Callback(pkg, render, n, st);
      if stop || n !in pkg then st'
      else Walk(pkg, render, rank, rank[n], pkg[n], st')
    case _ => st
  }

  /** The state after visiting the types of the fields `fs`, in order; `fs` starts `parent`'s list. */
  function WalkFields(pkg: Package, render: Renderer, ghost rank: map<string, nat>, ghost bound: nat,
                      ghost parent: TypeExpr, fs: seq<Field>, st: WalkState): WalkState
    requires Ranked(pkg, rank) && Below(pkg, rank, parent, bound)
    requires parent.Struct? && fs <= parent.fields
    decreases bound, parent, 0, |fs|
  {
    if fs == [] then st
    else
      var last := |fs| - 1;
      assert fs[last] == parent.fields[last];
      Walk(pkg, render, rank, bound, fs[last].typ,
           WalkFields(pkg, render, rank, bound, parent, fs[..last], st))
  }

  /**
   * The identifiers the walk meets, defined without any state: an identifier is met,
   * and a declared one is entered when it is primitive or renders (a declaration that
   * fails to render stops the branch every time it is met).
   */
  ghost function Refs(pkg: Package, render: Renderer, rank: map<string, nat>, bound: nat,
                      e: TypeExpr): set<string>
    requires Ranked(pkg, rank) && Below(pkg, rank, e, bound)
    decreases bound, e, 1
  {
    match e
    case Struct(fs) => RefsFields(pkg, render, rank, bound, e, fs)
    case Array(t) => Refs(pkg, render, rank, bound, t)
    case Map(k, v) => Refs(pkg, render, rank, bound, k) + Refs(pkg, render, rank, bound, v)
    case Ident(n) =>
      if n in pkg && (IsPrimitive(n) || render(TypeSpec(n, pkg[n])).Ok?)
      then {n} + Refs(pkg, render, rank, rank[n], pkg[n])
      else {n}
    case _ => {}
  }

  ghost function RefsFields(pkg: Package, render: Renderer, rank: map<string, nat>, bound: nat,
                            parent: TypeExpr, fs: seq<Field>): set<string>
    requires Ranked(pkg, rank) && Below(pkg, rank, parent, bound)
    requires parent.Struct? && fs <= parent.fields
    decreases bound, parent, 0, |fs|
  {
    if fs == [] then {}
    else
      var last := |fs| - 1;
      assert fs[last] == parent.fields[last];
      RefsFields(pkg, render, rank, bound, parent, fs[..last]) + Refs(pkg, render, rank, bound, fs[last].typ)
  }

  /**
   * The identifiers the walk meets, in the order it meets them (repetitions included): the
   * sequence counterpart of `Refs`.
   */
  ghost function MetSeq(pkg: Package, render: Renderer, rank: map<string, nat>, bound: nat,
                        e: TypeExpr): seq<string>
    requires Ranked(pkg, rank) && Below(pkg, rank, e, bound)
    decreases bound, e, 1
  {
    match e
    case Struct(fs) => MetSeqFields(pkg, render, rank, bound, e, fs)
    case Array(t) => MetSeq(pkg, render, rank, bound, t)
    case Map(k, v) => MetSeq(pkg, render, rank, bound, k) + MetSeq(pkg, render, rank, bound, v)
    case Ident(n) =>
      if n in pkg && (IsPrimitive(n) || render(TypeSpec(n, pkg[n])).Ok?)
      then [n] + MetSeq(pkg, render, rank, rank[n], pkg[n])
      else [n]
    case _ => []
  }

  ghost function MetSeqFields(pkg: Package, render: Renderer, rank: map<string, nat>, bound: nat,
                              parent: TypeExpr, fs: seq<Field>): seq<string>
    requires Ranked(pkg, rank) && Below(pkg, rank, parent, bound)
    requires parent.Struct? && fs <= parent.fields
    decreases bound, parent, 0, |fs|
  {
    if fs == [] then []
    else
      var last := |fs| - 1;
      assert fs[last] == parent.fields[last];
      MetSeqFields(pkg, render, rank, bound, parent, fs[..last]) + MetSeq(pkg, render, rank, bound, fs[last].typ)
  }

  /** A name the closure collects: declared, not primitive, and renderable. */
  ghost predicate Collected(pkg: Package, render: Renderer, n: string) {
    n in pkg && !IsPrimitive(n) && render(TypeSpec(n, pkg[n])).Ok?
  }

  /**
   * The collected names of `met` not in `seen`, each at its first occurrence: the names a
   * walk meeting `met` in that order adds to a closure already holding `seen`.
   */
  ghost function NewCollected(pkg: Package, render: Renderer, met: seq<string>, seen: set<string>): seq<string> {
    if met == [] then []
    else if Collected(pkg, render, met[0]) && met[0] !in seen
    then [met[0]] + NewCollected(pkg, render, met[1..], seen + {met[0]})
    else NewCollected(pkg, render, met[1..], seen)
  }

  /** The error a met identifier is reported with, if any. */
  function ErrorFor(pkg: Package, render: Renderer, n: string): Option<string> {
    if IsPrimitive(n) then None
    else if n !in pkg then Some(UndefinedType(n))
    else match render(TypeSpec(n, pkg[n]))
      case Err(err) => Some(RenderingFailed(err))
      case Ok(_) => None
  }

  /** The errors of the identifiers `met`, in order: one message per failing meeting. */
  function ErrSeq(pkg: Package, render: Renderer, met: seq<string>): seq<string> {
    if met == [] then []
    else ErrOf(pkg, render, met[0]) + ErrSeq(pkg, render, met[1..])
  }

  /** The message one meeting of `n` adds: its error, if it has one. */
  function ErrOf(pkg: Package, render: Renderer, n: string): seq<string> {
    match ErrorFor(pkg, render, n)
    case Some(m) => [m]
    case None => []
  }

  /**
   * The closure `run` builds for the root type `root`: the walk over the root's type
   * expression, started from the root alone.
   */
  function ClosureOf(pkg: Package, render: Renderer, ghost rank: map<string, nat>,
                     root: string, rootDef: string): WalkState
    requires Ranked(pkg, rank) && root in pkg && root in rank
  {
    Walk(pkg, render, rank, rank[root], pkg[root], Seed(TypeSpec(root, pkg[root]), rootDef))
  }

  /**
   * The closure invariant: `order` lists distinct names, exactly the keys of `specs`,
   * each the package's own declaration, with `defs[i]` the rendering of `order[i]`.
   */
  ghost predicate Valid(pkg: Package, render: Renderer, st: WalkState) {
    && |st.order| == |st.defs|
    && (forall i, j :: 0 <= i < j < |st.order| ==> st.order[i] != st.order[j])
    && (forall n :: n in st.specs <==> n in st.order)
    && (forall i :: 0 <= i < |st.order| ==>
          var n := st.order[i];
          n in pkg && st.specs[n] == TypeSpec(n, pkg[n]) && render(TypeSpec(n, pkg[n])) == Ok(st.defs[i]))
  }

  /**
   * The state `run` keeps across `traverseTypeIdents`: the closure callback's map of
   * declarations by name, the ordered rendered definitions and the accumulated errors.
   */
  class ClosureBuilder {
    const files: Files
    const render: Renderer
    var typeSpecs: map<string, TypeSpec>
    var typeDefinitions: seq<string>
    ghost var order: seq<string>
    var errs: seq<string>

    ghost function Current(): WalkState
      reads this
    {
      WalkState(typeSpecs, typeDefinitions, order, errs)
    }

    /** `typeDefinitions := []string{typeStr}` and `typeSpecs := {T: rootType}`. */
    constructor (files: Files, render: Renderer, root: TypeSpec, rootDef: string)
      ensures this.files == files && this.render == render
      ensures Current() == Seed(root, rootDef)
    {
      this.files := files;
      this.render := render;
      typeSpecs := map[root.name := root];
      typeDefinitions := [rootDef];
      order := [root.name];
      errs := [];
    }

    /** The callback: returns whether the walker must not descend into `name`. */
    method Visit(name: string) returns (stop: bool)
      modifies this
      ensures (stop, Current()) == Callback(Index(files), render, name, old(Current()))
    {
      if IsPrimitive(name) {
        return false;
      }
      var t := FindTypeIn(files, name);
      if t.None? {
        errs := errs + [UndefinedType(name)];
        return true;
      }
      if t.value.name in typeSpecs {
        return false;
      }
      var r := render(t.value);
      if r.Err? {
        errs := errs + [RenderingFailed(r.error)];
        return true;
      }
      typeSpecs := typeSpecs[t.value.name := t.value];
      typeDefinitions := typeDefinitions + [r.value];
      order := order + [t.value.name];
      return false;
    }

    /** `traverseTypeIdents(e, callback)`. */
    method Traverse(ghost rank: map<string, nat>, ghost bound: nat, e: TypeExpr)
      requires Ranked(Index(files), rank) && Below(Index(files), rank, e, bound)
      modifies this
      ensures Current() == Walk(Index(files), render, rank, bound, e, old(Current()))
      decreases bound, e
    {
      match e {
        case Chan =>
        case Func =>
        case Struct(fields) =>
          for i := 0 to |fields|
            invariant Current() == WalkFields(Index(files), render, rank, bound, e, fields[..i], old(Current()))
          {
            assert fields[..i + 1][..i] == fields[..i];
            Traverse(rank, bound, fields[i].typ);
          }
          assert fields[..|fields|] == fields;
        case Array(elem) =>
          Traverse(rank, bound, elem);
        case Map(key, value) =>
          Traverse(rank, bound, key);
          Traverse(rank, bound, value);
        case Ident(name) =>
          var stop := Visit(name);
          if stop {
            return;
          }
          var x := FindTypeIn(files, name);
          if x.Some? {
            Traverse(rank, rank[name], x.value.typ);
          }
        case Other =>
      }
    }
  }
}

module ClosureProps {
  import opened Wrappers
  import opened GoTypes
  import opened Closure

  /** The collected names among `s`. */
  ghost function CollectedIn(pkg: Package, render: Renderer, s: set<string>): set<string> {
    set n | n in s && Collected(pkg, render, n)
  }

  lemma CollectedInUnion(pkg: Package, render: Renderer, a: set<string>, b: set<string>)
    ensures CollectedIn(pkg, render, a + b) == CollectedIn(pkg, render, a) + CollectedIn(pkg, render, b)
  {
  }

  /**
   * One callback step: it stops exactly at the names that have an error, reports that
   * error, and adds `name` to the closure exactly when it is collected and not there yet.
   */
  lemma CallbackStep(pkg: Package, render: Renderer, name: string, st: WalkState)
    requires Valid(pkg, render, st)
    ensures var (stop, st') := Callback(pkg, render, name, st);
      && Valid(pkg, render, st')
      && st.order <= st'.order && st.defs <= st'.defs
      && (stop <==> ErrorFor(pkg, render, name).Some?)
      && st'.errs == st.errs + (if stop then [ErrorFor(pkg, render, name).value] else [])
      && st'.specs.Keys == st.specs.Keys + CollectedIn(pkg, render, {name})
      && st'.order == st.order + (if Collected(pkg, render, name) && name !in st.specs then [name] else [])
      && (!stop && name in pkg ==> IsPrimitive(name) || render(TypeSpec(name, pkg[name])).Ok?)
  {
    var (stop, st') := Callback(pkg, render, name, st);
    if !IsPrimitive(name) && name in pkg && name !in st.specs && render(TypeSpec(name, pkg[name])).Ok? {
      assert st'.order == st.order + [name];
      assert Valid(pkg, render, st');
    }
  }

  /**
   * The walk only appends, keeps the closure invariant, and adds to `typeSpecs` exactly
   * the collected names it meets (a name met again adds nothing: definitions are deduplicated).
   */
  lemma {:induction false} WalkGrows(pkg: Package, render: Renderer, rank: map<string, nat>, bound: nat,
                                     e: TypeExpr, st: WalkState)
    requires Ranked(pkg, rank) && Below(pkg, rank, e, bound) && Valid(pkg, render, st)
    ensures var st' := Walk(pkg, render, rank, bound, e, st);
      && Valid(pkg, render, st')
      && st.order <= st'.order && st.defs <= st'.defs && st.errs <= st'.errs
      && st'.specs.Keys == st.specs.Keys + CollectedIn(pkg, render, Refs(pkg, render, rank, bound, e))
    decreases bound, e, 1
  {
    match e
    case Struct(fs) =>
      WalkFieldsGrows(pkg, render, rank, bound, e, fs, st);
    case Array(t) =>
      WalkGrows(pkg, render, rank, bound, t, st);
    case Map(k, v) =>
      WalkGrowsMap(pkg, render, rank, bound, k, v, st);
    case Ident(n) =>
      WalkGrowsIdent(pkg, render, rank, bound, n, st);
    case _ =>
  }

  /** What a walk from `st` to `st'` meeting `met` promises. */
  ghost predicate Grows(pkg: Package, render: Renderer, st: WalkState, st': WalkState, met: set<string>) {
    && Valid(pkg, render, st')
    && st.order <= st'.order && st.defs <= st'.defs && st.errs <= st'.errs
    && st'.specs.Keys == st.specs.Keys + CollectedIn(pkg, render, met)
  }

  lemma GrowsTrans(pkg: Package, render: Renderer, st: WalkState, st1: WalkState, st2: WalkState,
                   a: set<string>, b: set<string>)
    requires Grows(pkg, render, st, st1, a) && Grows(pkg, render, st1, st2, b)
    ensures Grows(pkg, render, st, st2, a + b)
  {
    CollectedInUnion(pkg, render, a, b);
  }

  lemma RefsMap(pkg: Package, render: Renderer, rank: map<string, nat>, bound: nat, k: TypeExpr, v: TypeExpr)
    requires Ranked(pkg, rank) && Below(pkg, rank, Map(k, v), bound)
    ensures Below(pkg, rank, k, bound) && Below(pkg, rank, v, bound)
    ensures Refs(pkg, render, rank, bound, Map(k, v)) == Refs(pkg, render, rank, bound, k) + Refs(pkg, render, rank, bound, v)
  {
  }

  /** `WalkGrows` for a map: the key's walk, then the value's from where the key's ended. */
  lemma {:induction false} WalkGrowsMap(pkg: Package, render: Renderer, rank: map<string, nat>, bound: nat,
                                        k: TypeExpr, v: TypeExpr, st: WalkState)
    requires Ranked(pkg, rank) && Below(pkg, rank, Map(k, v), bound) && Valid(pkg, render, st)
    ensures var st' := Walk(pkg, render, rank, bound, Map(k, v), st);
      && Valid(pkg, render, st')
      && st.order <= st'.order && st.defs <= st'.defs && st.errs <= st'.errs
      && st'.specs.Keys == st.specs.Keys + CollectedIn(pkg, render, Refs(pkg, render, rank, bound, Map(k, v)))
    decreases bound, Map(k, v), 0
  {
    RefsMap(pkg, render, rank, bound, k, v);
    var st1 := Walk(pkg, render, rank, bound, k, st);
    WalkGrows(pkg, render, rank, bound, k, st);
    WalkGrows(pkg, render, rank, bound, v, st1);
    GrowsTrans(pkg, render, st, st1, Walk(pkg, render, rank, bound, v, st1),
               Refs(pkg, render, rank, bound, k), Refs(pkg, render, rank, bound, v));
  }

  /** `WalkGrows` for an identifier: one callback, then the declaration's body unless it stops. */
  lemma {:induction false} WalkGrowsIdent(pkg: Package, render: Renderer, rank: map<string, nat>, bound: nat,
                                          n: string, st: WalkState)
    requires Ranked(pkg, rank) && Below(pkg, rank, Ident(n), bound) && Valid(pkg, render, st)
    ensures var st' := Walk(pkg, render, rank, bound, Ident(n), st);
      && Valid(pkg, render, st')
      && st.order <= st'.order && st.defs <= st'.defs && st.errs <= st'.errs
      && st'.specs.Keys == st.specs.Keys + CollectedIn(pkg, render, Refs(pkg, render, rank, bound, Ident(n)))
    decreases bound, Ident(n), 0
  {
    CallbackStep(pkg, render, n, st);
    var (stop, st1) := Callback(pkg, render, n, st);
    if !stop && n in pkg {
      WalkGrows(pkg, render, rank, rank[n], pkg[n], st1);
      CollectedInUnion(pkg, render, {n}, Refs(pkg, render, rank, rank[n], pkg[n]));
    }
  }

  lemma {:induction false} WalkFieldsGrows(pkg: Package, render: Renderer, rank: map<string, nat>, bound: nat,
                                           parent: TypeExpr, fs: seq<Field>, st: WalkState)
    requires Ranked(pkg, rank) && Below(pkg, rank, parent, bound) && Valid(pkg, render, st)
    requires parent.Struct? && fs <= parent.fields
    ensures var st' := WalkFields(pkg, render, rank, bound, parent, fs, st);
      && Valid(pkg, render, st')
      && st.order <= st'.order && st.defs <= st'.defs && st.errs <= st'.errs
      && st'.specs.Keys == st.specs.Keys + CollectedIn(pkg, render, RefsFields(pkg, render, rank, bound, parent, fs))
    decreases bound, parent, 0, |fs|
  {
    if fs != [] {
      var last := |fs| - 1;
      assert fs[last] == parent.fields[last];
      WalkFieldsGrows(pkg, render, rank, bound, parent, fs[..last], st);
      WalkGrows(pkg, render, rank, bound, fs[last].typ,
                WalkFields(pkg, render, rank, bound, parent, fs[..last], st));
      CollectedInUnion(pkg, render, RefsFields(pkg, render, rank, bound, parent, fs[..last]),
                       Refs(pkg, render, rank, bound, fs[last].typ));
    }
  }

  lemma AppendedSplit(a: seq<string>, b: seq<string>, c: seq<string>)
    requires a <= b && b <= c
    ensures c[|a|..] == b[|a|..] + c[|b|..]
  {
  }

  /** The errors a walk reports: each belongs to an identifier it met, and every met identifier that has one is reported. */
  ghost predicate ReportsExactly(pkg: Package, render: Renderer, met: set<string>, added: seq<string>) {
    && (forall m :: m in added ==> exists n :: n in met && ErrorFor(pkg, render, n) == Some(m))
    && (forall n :: n in met && ErrorFor(pkg, render, n).Some? ==> ErrorFor(pkg, render, n).value in added)
  }

  lemma ReportsUnion(pkg: Package, render: Renderer, a: set<string>, b: set<string>,
                     ea: seq<string>, eb: seq<string>)
    requires ReportsExactly(pkg, render, a, ea) && ReportsExactly(pkg, render, b, eb)
    ensures ReportsExactly(pkg, render, a + b, ea + eb)
  {
  }

  /**
   * The errors the walk appends are exactly the errors of the identifiers it meets:
   * "undefined type: N" for an undeclared non-primitive N, the formatter's error for a
   * declaration that does not render. Primitive names are never reported.
   */
  lemma {:induction false} WalkErrors(pkg: Package, render: Renderer, rank: map<string, nat>, bound: nat,
                                      e: TypeExpr, st: WalkState)
    requires Ranked(pkg, rank) && Below(pkg, rank, e, bound) && Valid(pkg, render, st)
    ensures var st' := Walk(pkg, render, rank, bound, e, st);
      && st.errs <= st'.errs
      && ReportsExactly(pkg, render, Refs(pkg, render, rank, bound, e), st'.errs[|st.errs|..])
    decreases bound, e, 1
  {
    WalkGrows(pkg, render, rank, bound, e, st);
    match e
    case Struct(fs) =>
      WalkFieldsErrors(pkg, render, rank, bound, e, fs, st);
    case Array(t) =>
      WalkErrors(pkg, render, rank, bound, t, st);
    case Map(k, v) =>
      var st1 := Walk(pkg, render, rank, bound, k, st);
      var st2 := Walk(pkg, render, rank, bound, v, st1);
      WalkErrors(pkg, render, rank, bound, k, st);
      WalkGrows(pkg, render, rank, bound, k, st);
      WalkErrors(pkg, render, rank, bound, v, st1);
      AppendedSplit(st.errs, st1.errs, st2.errs);
      ReportsUnion(pkg, render, Refs(pkg, render, rank, bound, k), Refs(pkg, render, rank, bound, v),
                   st1.errs[|st.errs|..], st2.errs[|st1.errs|..]);
    case Ident(n) =>
      CallbackStep(pkg, render, n, st);
      var (stop, st1) := Callback(pkg, render, n, st);
      var own := st1.errs[|st.errs|..];
      assert own == (if stop then [ErrorFor(pkg, render, n).value] else []);
      assert ReportsExactly(pkg, render, {n}, own);
      if !stop && n in pkg {
        var st2 := Walk(pkg, render, rank, rank[n], pkg[n], st1);
        WalkErrors(pkg, render, rank, rank[n], pkg[n], st1);
        AppendedSplit(st.errs, st1.errs, st2.errs);
        ReportsUnion(pkg, render, {n}, Refs(pkg, render, rank, rank[n], pkg[n]), own, st2.errs[|st1.errs|..]);
      }
    case _ =>
  }

  lemma {:induction false} WalkFieldsErrors(pkg: Package, render: Renderer, rank: map<string, nat>, bound: nat,
                                            parent: TypeExpr, fs: seq<Field>, st: WalkState)
    requires Ranked(pkg, rank) && Below(pkg, rank, parent, bound) && Valid(pkg, render, st)
    requires parent.Struct? && fs <= parent.fields
    ensures var st' := WalkFields(pkg, render, rank, bound, parent, fs, st);
      && st.errs <= st'.errs
      && ReportsExactly(pkg, render, RefsFields(pkg, render, rank, bound, parent, fs), st'.errs[|st.errs|..])
    decreases bound, parent, 0, |fs|
  {
    WalkFieldsGrows(pkg, render, rank, bound, parent, fs, st);
    if fs != [] {
      var last := |fs| - 1;
      assert fs[last] == parent.fields[last];
      var st1 := WalkFields(pkg, render, rank, bound, parent, fs[..last], st);
      var st2 := Walk(pkg, render, rank, bound, fs[last].typ, st1);
      WalkFieldsErrors(pkg, render, rank, bound, parent, fs[..last], st);
      WalkFieldsGrows(pkg, render, rank, bound, parent, fs[..last], st);
      WalkErrors(pkg, render, rank, bound, fs[last].typ, st1);
      AppendedSplit(st.errs, st1.errs, st2.errs);
      ReportsUnion(pkg, render, RefsFields(pkg, render, rank, bound, parent, fs[..last]),
                   Refs(pkg, render, rank, bound, fs[last].typ), st1.errs[|st.errs|..], st2.errs[|st1.errs|..]);
    } else {
      assert st.errs[|st.errs|..] == [];
    }
  }

  /**
   * The closure of a root type: the root's definition comes first; every other entry is a
   * distinct declared, non-primitive, renderable name the walk meets, each exactly once, and
   * `typeSpecs` holds exactly the names of the definitions; the errors are one message per
   * meeting of a failing identifier, in meeting order, so the closure is error-free iff every
   * identifier met is primitive or a renderable declaration.
   */
  lemma ClosureContents(pkg: Package, render: Renderer, rank: map<string, nat>, root: string, rootDef: string)
    requires Ranked(pkg, rank) && root in pkg && root in rank && render(TypeSpec(root, pkg[root])) == Ok(rootDef)
    ensures var c := ClosureOf(pkg, render, rank, root, rootDef);
      var met := Refs(pkg, render, rank, rank[root], pkg[root]);
      && Valid(pkg, render, c)
      && |c.defs| >= 1 && c.defs[0] == rootDef && c.order[0] == root
      && c.specs.Keys == {root} + CollectedIn(pkg, render, met)
      && (forall i :: 1 <= i < |c.order| ==> c.order[i] in met && !IsPrimitive(c.order[i]))
      && c.errs == ErrSeq(pkg, render, MetSeq(pkg, render, rank, rank[root], pkg[root]))
      && ReportsExactly(pkg, render, met, c.errs)
      && (c.errs == [] <==> forall n :: n in met ==> ErrorFor(pkg, render, n) == None)
  {
    var seed := Seed(TypeSpec(root, pkg[root]), rootDef);
    assert Valid(pkg, render, seed);
    WalkErrSeq(pkg, render, rank, rank[root], pkg[root], seed);
    WalkGrows(pkg, render, rank, rank[root], pkg[root], seed);
    WalkErrors(pkg, render, rank, rank[root], pkg[root], seed);
    var c := ClosureOf(pkg, render, rank, root, rootDef);
    assert c.errs[|seed.errs|..] == c.errs;
    forall i | 1 <= i < |c.order|
      ensures c.order[i] in CollectedIn(pkg, render, Refs(pkg, render, rank, rank[root], pkg[root]))
    {
      assert c.order[i] != c.order[0];
      assert c.order[i] in c.specs;
    }
    var met := Refs(pkg, render, rank, rank[root], pkg[root]);
    if c.errs != [] {
      var m := c.errs[0];
      assert m in c.errs;
      var n :| n in met && ErrorFor(pkg, render, n) == Some(m);
    }
  }

  /** The errors of two consecutive sequences of meetings are the errors of each, in turn. */
  lemma {:induction false} ErrSeqAppend(pkg: Package, render: Renderer, a: seq<string>, b: seq<string>)
    ensures ErrSeq(pkg, render, a + b) == ErrSeq(pkg, render, a) + ErrSeq(pkg, render, b)
  {
    if a == [] {
      assert a + b == b;
    } else {
      assert (a + b)[0] == a[0] && (a + b)[1..] == a[1..] + b;
      var head := ErrOf(pkg, render, a[0]);
      assert ErrSeq(pkg, render, a + b) == head + ErrSeq(pkg, render, a[1..] + b);
      ErrSeqAppend(pkg, render, a[1..], b);
      AppendAssoc(head, ErrSeq(pkg, render, a[1..]), ErrSeq(pkg, render, b));
    }
  }

  /** Two consecutive walks: the errors grow by those of the first's meetings, then the second's. */
  lemma ErrTrans(pkg: Package, render: Renderer, e: seq<string>, e1: seq<string>, e2: seq<string>,
                 ma: seq<string>, mb: seq<string>)
    requires e1 == e + ErrSeq(pkg, render, ma)
    requires e2 == e1 + ErrSeq(pkg, render, mb)
    ensures e2 == e + ErrSeq(pkg, render, ma + mb)
  {
    ErrSeqAppend(pkg, render, ma, mb);
  }

  /**
   * The walk appends one error per failing meeting, in the order it meets identifiers: an
   * identifier reached along several paths is reported once per path.
   */
  lemma {:induction false} WalkErrSeq(pkg: Package, render: Renderer, rank: map<string, nat>, bound: nat,
                                      e: TypeExpr, st: WalkState)
    requires Ranked(pkg, rank) && Below(pkg, rank, e, bound) && Valid(pkg, render, st)
    ensures Walk(pkg, render, rank, bound, e, st).errs ==
      st.errs + ErrSeq(pkg, render, MetSeq(pkg, render, rank, bound, e))
    decreases bound, e, 1
  {
    match e
    case Struct(fs) =>
      WalkFieldsErrSeq(pkg, render, rank, bound, e, fs, st);
    case Array(t) =>
      WalkErrSeq(pkg, render, rank, bound, t, st);
    case Map(k, v) =>
      RefsMap(pkg, render, rank, bound, k, v);
      var st1 := Walk(pkg, render, rank, bound, k, st);
      WalkGrows(pkg, render, rank, bound, k, st);
      WalkErrSeq(pkg, render, rank, bound, k, st);
      WalkErrSeq(pkg, render, rank, bound, v, st1);
      ErrTrans(pkg, render, st.errs, st1.errs, Walk(pkg, render, rank, bound, v, st1).errs,
               MetSeq(pkg, render, rank, bound, k), MetSeq(pkg, render, rank, bound, v));
    case Ident(n) =>
      WalkErrSeqIdent(pkg, render, rank, bound, n, st);
    case _ =>
  }

  lemma {:induction false} WalkErrSeqIdent(pkg: Package, render: Renderer, rank: map<string, nat>, bound: nat,
                                           n: string, st: WalkState)
    requires Ranked(pkg, rank) && Below(pkg, rank, Ident(n), bound) && Valid(pkg, render, st)
    ensures Walk(pkg, render, rank, bound, Ident(n), st).errs ==
      st.errs + ErrSeq(pkg, render, MetSeq(pkg, render, rank, bound, Ident(n)))
    decreases bound, Ident(n), 0
  {
    CallbackStep(pkg, render, n, st);
    var (stop, st1) := Callback(pkg, render, n, st);
    assert ErrSeq(pkg, render, [n]) == (if stop then [ErrorFor(pkg, render, n).value] else []);
    if n in pkg && (IsPrimitive(n) || render(TypeSpec(n, pkg[n])).Ok?) {
      var rest := MetSeq(pkg, render, rank, rank[n], pkg[n]);
      assert MetSeq(pkg, render, rank, bound, Ident(n)) == [n] + rest;
      assert Walk(pkg, render, rank, bound, Ident(n), st) == Walk(pkg, render, rank, rank[n], pkg[n], st1);
      WalkErrSeq(pkg, render, rank, rank[n], pkg[n], st1);
      ErrSeqAppend(pkg, render, [n], rest);
      assert st1.errs == st.errs + ErrSeq(pkg, render, [n]);
      AppendAssoc(st.errs, ErrSeq(pkg, render, [n]), ErrSeq(pkg, render, rest));
    } else {
      assert MetSeq(pkg, render, rank, bound, Ident(n)) == [n];
      assert Walk(pkg, render, rank, bound, Ident(n), st) == st1;
    }
  }

  lemma {:induction false} WalkFieldsErrSeq(pkg: Package, render: Renderer, rank: map<string, nat>, bound: nat,
                                            parent: TypeExpr, fs: seq<Field>, st: WalkState)
    requires Ranked(pkg, rank) && Below(pkg, rank, parent, bound) && Valid(pkg, render, st)
    requires parent.Struct? && fs <= parent.fields
    ensures WalkFields(pkg, render, rank, bound, parent, fs, st).errs ==
      st.errs + ErrSeq(pkg, render, MetSeqFields(pkg, render, rank, bound, parent, fs))
    decreases bound, parent, 0, |fs|
  {
    if fs != [] {
      var last := |fs| - 1;
      assert fs[last] == parent.fields[last];
      var st1 := WalkFields(pkg, render, rank, bound, parent, fs[..last], st);
      WalkFieldsGrows(pkg, render, rank, bound, parent, fs[..last], st);
      WalkFieldsErrSeq(pkg, render, rank, bound, parent, fs[..last], st);
      WalkErrSeq(pkg, render, rank, bound, fs[last].typ, st1);
      ErrTrans(pkg, render, st.errs, st1.errs, Walk(pkg, render, rank, bound, fs[last].typ, st1).errs,
               MetSeqFields(pkg, render, rank, bound, parent, fs[..last]),
               MetSeq(pkg, render, rank, bound, fs[last].typ));
    } else {
      assert st.errs + [] == st.errs;
    }
  }

  ghost function Elems(s: seq<string>): set<string> {
    set x | x in s
  }

  /** The identifiers met, as a sequence, are exactly the identifiers met. */
  lemma {:induction false} MetSeqRefs(pkg: Package, render: Renderer, rank: map<string, nat>, bound: nat,
                                      e: TypeExpr)
    requires Ranked(pkg, rank) && Below(pkg, rank, e, bound)
    ensures Elems(MetSeq(pkg, render, rank, bound, e)) == Refs(pkg, render, rank, bound, e)
    decreases bound, e, 1
  {
    match e
    case Struct(fs) =>
      MetSeqFieldsRefs(pkg, render, rank, bound, e, fs);
    case Array(t) =>
      MetSeqRefs(pkg, render, rank, bound, t);
    case Map(k, v) =>
      RefsMap(pkg, render, rank, bound, k, v);
      MetSeqRefs(pkg, render, rank, bound, k);
      MetSeqRefs(pkg, render, rank, bound, v);
    case Ident(n) =>
      if n in pkg && (IsPrimitive(n) || render(TypeSpec(n, pkg[n])).Ok?) {
        MetSeqRefs(pkg, render, rank, rank[n], pkg[n]);
      }
    case _ =>
  }

  lemma {:induction false} MetSeqFieldsRefs(pkg: Package, render: Renderer, rank: map<string, nat>, bound: nat,
                                            parent: TypeExpr, fs: seq<Field>)
    requires Ranked(pkg, rank) && Below(pkg, rank, parent, bound)
    requires parent.Struct? && fs <= parent.fields
    ensures Elems(MetSeqFields(pkg, render, rank, bound, parent, fs)) == RefsFields(pkg, render, rank, bound, parent, fs)
    decreases bound, parent, 0, |fs|
  {
    if fs != [] {
      var last := |fs| - 1;
      assert fs[last] == parent.fields[last];
      MetSeqFieldsRefs(pkg, render, rank, bound, parent, fs[..last]);
      MetSeqRefs(pkg, render, rank, bound, fs[last].typ);
    }
  }

  /** Meeting `a` and then `b` adds what `a` adds, then what `b` adds beyond `a`'s collected names. */
  lemma {:induction false} NewCollectedAppend(pkg: Package, render: Renderer, a: seq<string>, b: seq<string>,
                                              seen: set<string>)
    ensures NewCollected(pkg, render, a + b, seen) ==
      NewCollected(pkg, render, a, seen) + NewCollected(pkg, render, b, seen + CollectedIn(pkg, render, Elems(a)))
  {
    if a == [] {
      assert a + b == b;
      assert Elems(a) == {};
      assert seen + CollectedIn(pkg, render, Elems(a)) == seen;
      assert NewCollected(pkg, render, a, seen) == [];
    } else {
      assert (a + b)[0] == a[0] && (a + b)[1..] == a[1..] + b;
      var x := a[0];
      var seen' := if Collected(pkg, render, x) && x !in seen then seen + {x} else seen;
      NewCollectedAppend(pkg, render, a[1..], b, seen');
      assert Elems(a) == {x} + Elems(a[1..]);
      CollectedInUnion(pkg, render, {x}, Elems(a[1..]));
      assert seen' + CollectedIn(pkg, render, Elems(a[1..])) == seen + CollectedIn(pkg, render, Elems(a));
    }
  }

  /** The walk appends to `order` exactly the new collected names it meets, in first-meeting order. */
  lemma {:induction false} WalkOrder(pkg: Package, render: Renderer, rank: map<string, nat>, bound: nat,
                                     e: TypeExpr, st: WalkState)
    requires Ranked(pkg, rank) && Below(pkg, rank, e, bound) && Valid(pkg, render, st)
    ensures Walk(pkg, render, rank, bound, e, st).order ==
      st.order + NewCollected(pkg, render, MetSeq(pkg, render, rank, bound, e), st.specs.Keys)
    decreases bound, e, 1
  {
    match e
    case Struct(fs) =>
      WalkFieldsOrder(pkg, render, rank, bound, e, fs, st);
    case Array(t) =>
      WalkOrder(pkg, render, rank, bound, t, st);
    case Map(k, v) =>
      WalkOrderMap(pkg, render, rank, bound, k, v, st);
    case Ident(n) =>
      WalkOrderIdent(pkg, render, rank, bound, n, st);
    case _ =>
  }

  /** Two consecutive walks: the order grows by what the first meets, then by what the second meets beyond it. */
  lemma OrderTrans(pkg: Package, render: Renderer, st: WalkState, st1: WalkState, st2: WalkState,
                   ma: seq<string>, mb: seq<string>)
    requires st1.order == st.order + NewCollected(pkg, render, ma, st.specs.Keys)
    requires st1.specs.Keys == st.specs.Keys + CollectedIn(pkg, render, Elems(ma))
    requires st2.order == st1.order + NewCollected(pkg, render, mb, st1.specs.Keys)
    ensures st2.order == st.order + NewCollected(pkg, render, ma + mb, st.specs.Keys)
  {
    NewCollectedAppend(pkg, render, ma, mb, st.specs.Keys);
  }

  lemma {:induction false} WalkOrderMap(pkg: Package, render: Renderer, rank: map<string, nat>, bound: nat,
                                        k: TypeExpr, v: TypeExpr, st: WalkState)
    requires Ranked(pkg, rank) && Below(pkg, rank, Map(k, v), bound) && Valid(pkg, render, st)
    ensures Walk(pkg, render, rank, bound, Map(k, v), st).order ==
      st.order + NewCollected(pkg, render, MetSeq(pkg, render, rank, bound, Map(k, v)), st.specs.Keys)
    decreases bound, Map(k, v), 0
  {
    RefsMap(pkg, render, rank, bound, k, v);
    var st1 := Walk(pkg, render, rank, bound, k, st);
    WalkGrows(pkg, render, rank, bound, k, st);
    MetSeqRefs(pkg, render, rank, bound, k);
    WalkOrder(pkg, render, rank, bound, k, st);
    WalkOrder(pkg, render, rank, bound, v, st1);
    OrderTrans(pkg, render, st, st1, Walk(pkg, render, rank, bound, v, st1),
               MetSeq(pkg, render, rank, bound, k), MetSeq(pkg, render, rank, bound, v));
  }

  lemma {:induction false} WalkOrderIdent(pkg: Package, render: Renderer, rank: map<string, nat>, bound: nat,
                                          n: string, st: WalkState)
    requires Ranked(pkg, rank) && Below(pkg, rank, Ident(n), bound) && Valid(pkg, render, st)
    ensures Walk(pkg, render, rank, bound, Ident(n), st).order ==
      st.order + NewCollected(pkg, render, MetSeq(pkg, render, rank, bound, Ident(n)), st.specs.Keys)
    decreases bound, Ident(n), 0
  {
    CallbackAdds(pkg, render, n, st);
    var (stop, st1) := Callback(pkg, render, n, st);
    if n in pkg && (IsPrimitive(n) || render(TypeSpec(n, pkg[n])).Ok?) {
      var rest := MetSeq(pkg, render, rank, rank[n], pkg[n]);
      assert MetSeq(pkg, render, rank, bound, Ident(n)) == [n] + rest;
      assert Walk(pkg, render, rank, bound, Ident(n), st) == Walk(pkg, render, rank, rank[n], pkg[n], st1);
      WalkOrder(pkg, render, rank, rank[n], pkg[n], st1);
      NewCollectedCons(pkg, render, n, rest, st.specs.Keys);
      var added := if Collected(pkg, render, n) && n !in st.specs.Keys then [n] else [];
      assert st1.order == st.order + added;
      assert NewCollected(pkg, render, [n] + rest, st.specs.Keys) ==
        added + NewCollected(pkg, render, rest, st1.specs.Keys);
      AppendAssoc(st.order, added, NewCollected(pkg, render, rest, st1.specs.Keys));
    } else {
      assert MetSeq(pkg, render, rank, bound, Ident(n)) == [n] + [];
      assert Walk(pkg, render, rank, bound, Ident(n), st) == st1;
      NewCollectedCons(pkg, render, n, [], st.specs.Keys);
    }
  }

  lemma AppendAssoc(a: seq<string>, b: seq<string>, c: seq<string>)
    ensures a + b + c == a + (b + c)
  {
  }

  /** One callback, as far as the order is concerned: `name` is appended exactly when it is a new collected name. */
  lemma CallbackAdds(pkg: Package, render: Renderer, name: string, st: WalkState)
    requires Valid(pkg, render, st)
    ensures var (stop, st') := Callback(pkg, render, name, st);
      var isNew := Collected(pkg, render, name) && name !in st.specs.Keys;
      && Valid(pkg, render, st')
      && (stop <==> ErrorFor(pkg, render, name).Some?)
      && st'.order == st.order + (if isNew then [name] else [])
      && st'.specs.Keys == (if isNew then st.specs.Keys + {name} else st.specs.Keys)
  {
    CallbackStep(pkg, render, name, st);
    var (stop, st') := Callback(pkg, render, name, st);
    if Collected(pkg, render, name) && name !in st.specs.Keys {
      assert st'.specs == st.specs[name := TypeSpec(name, pkg[name])];
    } else {
      assert st'.specs == st.specs;
    }
  }

  lemma NewCollectedCons(pkg: Package, render: Renderer, n: string, rest: seq<string>, seen: set<string>)
    ensures var isNew := Collected(pkg, render, n) && n !in seen;
      NewCollected(pkg, render, [n] + rest, seen) ==
        (if isNew then [n] else []) + NewCollected(pkg, render, rest, if isNew then seen + {n} else seen)
  {
    assert ([n] + rest)[0] == n && ([n] + rest)[1..] == rest;
  }

  lemma {:induction false} WalkFieldsOrder(pkg: Package, render: Renderer, rank: map<string, nat>, bound: nat,
                                           parent: TypeExpr, fs: seq<Field>, st: WalkState)
    requires Ranked(pkg, rank) && Below(pkg, rank, parent, bound) && Valid(pkg, render, st)
    requires parent.Struct? && fs <= parent.fields
    ensures WalkFields(pkg, render, rank, bound, parent, fs, st).order ==
      st.order + NewCollected(pkg, render, MetSeqFields(pkg, render, rank, bound, parent, fs), st.specs.Keys)
    decreases bound, parent, 0, |fs|
  {
    if fs != [] {
      var last := |fs| - 1;
      assert fs[last] == parent.fields[last];
      var st1 := WalkFields(pkg, render, rank, bound, parent, fs[..last], st);
      WalkFieldsGrows(pkg, render, rank, bound, parent, fs[..last], st);
      MetSeqFieldsRefs(pkg, render, rank, bound, parent, fs[..last]);
      WalkFieldsOrder(pkg, render, rank, bound, parent, fs[..last], st);
      WalkOrder(pkg, render, rank, bound, fs[last].typ, st1);
      OrderTrans(pkg, render, st, st1, Walk(pkg, render, rank, bound, fs[last].typ, st1),
                 MetSeqFields(pkg, render, rank, bound, parent, fs[..last]),
                 MetSeq(pkg, render, rank, bound, fs[last].typ));
    }
  }

  /**
   * `typeDefinitions` in full: the root's definition, then the definition of every collected
   * name the walk meets, once each, in the order the walk first meets them.
   */
  lemma ClosureOrder(pkg: Package, render: Renderer, rank: map<string, nat>, root: string, rootDef: string)
    requires Ranked(pkg, rank) && root in pkg && root in rank && render(TypeSpec(root, pkg[root])) == Ok(rootDef)
    ensures var c := ClosureOf(pkg, render, rank, root, rootDef);
      && c.order == [root] + NewCollected(pkg, render, MetSeq(pkg, render, rank, rank[root], pkg[root]), {root})
      && |c.defs| == |c.order|
      && forall i :: 0 <= i < |c.order| ==>
           c.order[i] in pkg && render(TypeSpec(c.order[i], pkg[c.order[i]])) == Ok(c.defs[i])
  {
    var seed := Seed(TypeSpec(root, pkg[root]), rootDef);
    assert Valid(pkg, render, seed);
    assert seed.specs.Keys == {root};
    WalkOrder(pkg, render, rank, rank[root], pkg[root], seed);
    WalkGrows(pkg, render, rank, rank[root], pkg[root], seed);
  }
}

=== FILE: closure_examples.dfy ===
/** Concrete closures: discovery order, deduplication of definitions, and duplicated errors. */
module ClosureExamples {
  import opened Wrappers
  import opened GoTypes
  import opened Closure

  /** A formatter that renders every declaration as its bare name. */
  function NameOnly(t: TypeSpec): Result<string, string> {
    Ok(t.name)
  }

  function Untagged(name: string, t: TypeExpr): Field {
    Field([name], t, None)
  }

  /** `type Root struct { C chan int; F func(); M map[K][]V; P *W }`, with `K`, `V` and `W` declared. */
  const MapRoot := Struct([Untagged("C", Chan), Untagged("F", Func),
                           Untagged("M", Map(Ident("K"), Array(Ident("V")))), Untagged("P", Other)])
  const MapPkg: Package := map["Root" := MapRoot, "K" := Struct([]), "V" := Struct([]), "W" := Struct([])]
  const MapRank: map<string, nat> := map["Root" := 1, "K" := 0, "V" := 0, "W" := 0]

  lemma MapPkgRanked()
    ensures Ranked(MapPkg, MapRank)
  {
    assert Idents(MapRoot) == {"K", "V"} by {
      assert "K" in Idents(MapRoot.fields[2].typ);
      assert "V" in Idents(MapRoot.fields[2].typ);
    }
  }

  const MapSeed := Seed(TypeSpec("Root", MapRoot), "Root")
  const MapAfterK := MapSeed.(specs := MapSeed.specs["K" := TypeSpec("K", Struct([]))],
                              defs := MapSeed.defs + ["K"], order := MapSeed.order + ["K"])
  const MapAfterV := MapAfterK.(specs := MapAfterK.specs["V" := TypeSpec("V", Struct([]))],
                                defs := MapAfterK.defs + ["V"], order := MapAfterK.order + ["V"])

  lemma MapSkipsChanAndFunc()
    ensures Ranked(MapPkg, MapRank)
    ensures WalkFields(MapPkg, NameOnly, MapRank, 1, MapRoot, MapRoot.fields[..2], MapSeed) == MapSeed
  {
    MapPkgRanked();
    var fs := MapRoot.fields;
    assert WalkFields(MapPkg, NameOnly, MapRank, 1, MapRoot, fs[..1], MapSeed) == MapSeed by {
      assert fs[..1][..0] == [] && fs[..1][0].typ == Chan;
    }
    assert fs[..2][..1] == fs[..1] && fs[..2][1].typ == Func;
  }

  lemma MapVisitsK()
    ensures Ranked(MapPkg, MapRank)
    ensures Walk(MapPkg, NameOnly, MapRank, 1, Ident("K"), MapSeed) == MapAfterK
  {
    MapPkgRanked();
    assert Callback(MapPkg, NameOnly, "K", MapSeed) == (false, MapAfterK) by {
      assert !IsPrimitive("K") && "K" !in MapSeed.specs;
      assert FindType(MapPkg, "K") == Some(TypeSpec("K", Struct([])));
    }
    assert Walk(MapPkg, NameOnly, MapRank, 0, Struct([]), MapAfterK) == MapAfterK;
  }

  lemma MapVisitsV()
    ensures Ranked(MapPkg, MapRank)
    ensures Walk(MapPkg, NameOnly, MapRank, 1, Ident("V"), MapAfterK) == MapAfterV
  {
    MapPkgRanked();
    assert Callback(MapPkg, NameOnly, "V", MapAfterK) == (false, MapAfterV) by {
      assert !IsPrimitive("V") && "V" !in MapAfterK.specs;
      assert FindType(MapPkg, "V") == Some(TypeSpec("V", Struct([])));
    }
    assert Walk(MapPkg, NameOnly, MapRank, 0, Struct([]), MapAfterV) == MapAfterV;
  }

  lemma MapFieldBelow()
    ensures Ranked(MapPkg, MapRank)
    ensures Below(MapPkg, MapRank, Map(Ident("K"), Array(Ident("V"))), 1)
  {
    MapPkgRanked();
    assert Idents(Map(Ident("K"), Array(Ident("V")))) == {"K", "V"};
  }

  lemma MapVisitsArrayV()
    ensures Ranked(MapPkg, MapRank)
    ensures Walk(MapPkg, NameOnly, MapRank, 1, Array(Ident("V")), MapAfterK) == MapAfterV
  {
    MapVisitsV();
  }

  lemma MapKeyThenValue()
    ensures Ranked(MapPkg, MapRank)
    ensures Below(MapPkg, MapRank, Map(Ident("K"), Array(Ident("V"))), 1)
    ensures Walk(MapPkg, NameOnly, MapRank, 1, Map(Ident("K"), Array(Ident("V"))), MapSeed) == MapAfterV
  {
    MapFieldBelow();
    MapVisitsK();
    MapVisitsArrayV();
  }

  /** The first three fields of `Root`: the channel and the function, then the map. */
  lemma MapFirstThreeFields()
    ensures Ranked(MapPkg, MapRank)
    ensures WalkFields(MapPkg, NameOnly, MapRank, 1, MapRoot, MapRoot.fields[..3], MapSeed) == MapAfterV
  {
    MapSkipsChanAndFunc();
    MapKeyThenValue();
    var fs := MapRoot.fields;
    assert fs[..3][..2] == fs[..2] && fs[..3][2].typ == Map(Ident("K"), Array(Ident("V")));
  }

  /** The pointer field adds nothing after the map. */
  lemma MapAllFields()
    ensures Ranked(MapPkg, MapRank)
    ensures WalkFields(MapPkg, NameOnly, MapRank, 1, MapRoot, MapRoot.fields, MapSeed) == MapAfterV
  {
    MapFirstThreeFields();
    var fs := MapRoot.fields;
    assert fs[..4] == fs && fs[..4][..3] == fs[..3] && fs[3].typ == Other;
  }

  /**
   * The channel and function fields are skipped, the map key is collected before the value,
   * and the pointer is not entered, so `W` is not collected.
   */
  lemma KeyBeforeValue()
    ensures Ranked(MapPkg, MapRank)
    ensures var c := ClosureOf(MapPkg, NameOnly, MapRank, "Root", "Root");
      c.defs == ["Root", "K", "V"] && c.errs == []
  {
    MapAllFields();
    assert ClosureOf(MapPkg, NameOnly, MapRank, "Root", "Root") == MapAfterV;
    assert MapAfterV.defs == ["Root", "K", "V"];
  }

  /** `type Root struct { A Leaf; B Leaf }` and `type Leaf struct { X Missing }`. */
  const DiamondRoot := Struct([Untagged("A", Ident("Leaf")), Untagged("B", Ident("Leaf"))])
  const DiamondLeaf := Struct([Untagged("X", Ident("Missing"))])
  const DiamondPkg: Package := map["Root" := DiamondRoot, "Leaf" := DiamondLeaf]
  const DiamondRank: map<string, nat> := map["Root" := 1, "Leaf" := 0]

  lemma DiamondPkgRanked()
    ensures Ranked(DiamondPkg, DiamondRank)
  {
    assert Idents(DiamondRoot) == {"Leaf"} by { assert "Leaf" in Idents(DiamondRoot.fields[0].typ); }
    assert Idents(DiamondLeaf) == {"Missing"} by { assert "Missing" in Idents(DiamondLeaf.fields[0].typ); }
  }

  const DiamondSeed := Seed(TypeSpec("Root", DiamondRoot), "Root")
  const DiamondWithLeaf := DiamondSeed.(specs := DiamondSeed.specs["Leaf" := TypeSpec("Leaf", DiamondLeaf)],
                                        defs := DiamondSeed.defs + ["Leaf"],
                                        order := DiamondSeed.order + ["Leaf"])
  const DiamondOnce := DiamondWithLeaf.(errs := [UndefinedType("Missing")])
  const DiamondTwice := DiamondWithLeaf.(errs := [UndefinedType("Missing"), UndefinedType("Missing")])

  /** Walking `Leaf`'s body, from any state, reports `Missing` once more. */
  lemma DiamondLeafBody(st: WalkState)
    ensures Ranked(DiamondPkg, DiamondRank)
    ensures Walk(DiamondPkg, NameOnly, DiamondRank, 0, DiamondLeaf, st) ==
      st.(errs := st.errs + [UndefinedType("Missing")])
  {
    DiamondPkgRanked();
    assert Callback(DiamondPkg, NameOnly, "Missing", st) == (true, st.(errs := st.errs + [UndefinedType("Missing")])) by {
      assert !IsPrimitive("Missing") && FindType(DiamondPkg, "Missing") == None;
    }
    assert DiamondLeaf.fields[..1] == DiamondLeaf.fields && DiamondLeaf.fields[..1][..0] == [];
  }

  lemma DiamondFirstPath()
    ensures Ranked(DiamondPkg, DiamondRank)
    ensures Walk(DiamondPkg, NameOnly, DiamondRank, 1, Ident("Leaf"), DiamondSeed) == DiamondOnce
  {
    DiamondPkgRanked();
    assert Callback(DiamondPkg, NameOnly, "Leaf", DiamondSeed) == (false, DiamondWithLeaf) by {
      assert !IsPrimitive("Leaf") && "Leaf" !in DiamondSeed.specs;
      assert FindType(DiamondPkg, "Leaf") == Some(TypeSpec("Leaf", DiamondLeaf));
    }
    DiamondLeafBody(DiamondWithLeaf);
  }

  lemma DiamondSecondPath()
    ensures Ranked(DiamondPkg, DiamondRank)
    ensures Walk(DiamondPkg, NameOnly, DiamondRank, 1, Ident("Leaf"), DiamondOnce) == DiamondTwice
  {
    DiamondPkgRanked();
    assert Callback(DiamondPkg, NameOnly, "Leaf", DiamondOnce) == (false, DiamondOnce) by {
      assert !IsPrimitive("Leaf") && "Leaf" in DiamondOnce.specs;
      assert FindType(DiamondPkg, "Leaf") == Some(TypeSpec("Leaf", DiamondLeaf));
    }
    DiamondLeafBody(DiamondOnce);
  }

  /**
   * `Leaf` is defined once, but it is walked once per path, so the undefined `Missing`
   * is reported twice.
   */
  lemma DiamondReportsTwice()
    ensures Ranked(DiamondPkg, DiamondRank)
    ensures var c := ClosureOf(DiamondPkg, NameOnly, DiamondRank, "Root", "Root");
      c.defs == ["Root", "Leaf"] && c.errs == [UndefinedType("Missing"), UndefinedType("Missing")]
  {
    DiamondFirstPath();
    DiamondSecondPath();
    var fs := DiamondRoot.fields;
    assert WalkFields(DiamondPkg, NameOnly, DiamondRank, 1, DiamondRoot, fs[..1], DiamondSeed) == DiamondOnce by {
      assert fs[..1][..0] == [];
    }
    assert fs[..2][..1] == fs[..1] && fs[..2] == fs;
    assert DiamondTwice.defs == ["Root", "Leaf"];
  }

  /**
   * Only the 19 listed names count as primitive: `byte` and `rune` never raise an error, but
   * the predeclared `any` and `error` are reported as undefined unless the package declares
   * them, and a package type that shadows `string` is never collected.
   */
  lemma PredeclaredOutsideList(pkg: Package, render: Renderer)
    ensures ErrorFor(pkg, render, "byte") == None && ErrorFor(pkg, render, "rune") == None
    ensures "any" !in pkg ==> ErrorFor(pkg, render, "any") == Some(UndefinedType("any"))
    ensures "error" !in pkg ==> ErrorFor(pkg, render, "error") == Some(UndefinedType("error"))
    ensures !Collected(pkg, render, "string")
  {
  }
}

=== FILE: env.dfy ===
/**
 * `envToMap`: environment entries `KEY=VALUE` turned into a map. Each entry splits at its
 * first `=`, so the value may itself contain `=`; a later entry for the same key replaces an
 * earlier one. An entry without `=` makes the source panic; here every entry must have one.
 */
module Env {
  /** Every entry has the `=` that separates its key from its value. */
  predicate WellFormed(envVars: seq<string>) {
    forall i :: 0 <= i < |envVars| ==> '=' in envVars[i]
  }

  /** The position of the first `=` in `s`. */
  function FirstEquals(s: string): (r: nat)
    requires '=' in s
    ensures r < |s| && s[r] == '='
    ensures '=' !in s[..r]
  {
    if s[0] == '=' then 0
    else
      var r := 1 + FirstEquals(s[1..]);
      assert s[..r] == [s[0]] + s[1..][..r - 1];
      r
  }

  /** `strings.SplitN(s, "=", 2)`: the text before the first `=` and the rest after it. */
  function Split(s: string): (r: (string, string))
    requires '=' in s
    ensures s == r.0 + "=" + r.1
    ensures '=' !in r.0
  {
    var i := FirstEquals(s);
    assert s == s[..i] + "=" + s[i + 1..];
    (s[..i], s[i + 1..])
  }

  /** Splitting takes apart exactly what joining a `=`-free key to any value put together. */
  lemma SplitJoin(key: string, value: string)
    requires '=' !in key
    ensures '=' in key + "=" + value
    ensures Split(key + "=" + value) == (key, value)
  {
    var s := key + "=" + value;
    assert s[|key|] == '=';
    var i := FirstEquals(s);
    assert i == |key| by {
      assert forall j :: 0 <= j < |key| ==> s[j] == key[j];
    }
    assert s[..|key|] == key;
    assert s[|key| + 1..] == value;
  }

  /** The map the entries describe: each entry in turn sets its key. */
  function EnvMap(envVars: seq<string>): map<string, string>
    requires WellFormed(envVars)
  {
    if envVars == [] then map[]
    else
      var last := |envVars| - 1;
      var (k, v) := Split(envVars[last]);
      EnvMap(envVars[..last])[k := v]
  }

  /** The keys of the map are exactly the keys of the entries. */
  lemma {:induction false} EnvMapKeys(envVars: seq<string>, key: string)
    requires WellFormed(envVars)
    ensures key in EnvMap(envVars) <==> exists i :: 0 <= i < |envVars| && Split(envVars[i]).0 == key
  {
    if envVars != [] {
      var last := |envVars| - 1;
      var init := envVars[..last];
      EnvMapKeys(init, key);
      var (k, v) := Split(envVars[last]);
      assert EnvMap(envVars) == EnvMap(init)[k := v];
      if key != k {
        calc {
          key in EnvMap(envVars);
          key in EnvMap(init);
          exists i :: 0 <= i < |init| && Split(init[i]).0 == key;
          { assert forall i :: 0 <= i < |init| ==> init[i] == envVars[i]; }
          exists i :: 0 <= i < |envVars| && Split(envVars[i]).0 == key;
        }
      }
    }
  }

  /** A key's value is the value of the last entry with that key: later entries overwrite. */
  lemma {:induction false} EnvMapLastWins(envVars: seq<string>, i: nat)
    requires WellFormed(envVars)
    requires i < |envVars|
    requires forall j :: i < j < |envVars| ==> Split(envVars[j]).0 != Split(envVars[i]).0
    ensures Split(envVars[i]).0 in EnvMap(envVars)
    ensures EnvMap(envVars)[Split(envVars[i]).0] == Split(envVars[i]).1
  {
    var last := |envVars| - 1;
    if i < last {
      var init := envVars[..last];
      assert init[i] == envVars[i];
      forall j | i < j < |init|
        ensures Split(init[j]).0 != Split(init[i]).0
      {
        assert init[j] == envVars[j];
      }
      EnvMapLastWins(init, i);
    }
  }

  /** The source's loop: fill a map entry by entry. */
  method EnvToMap(envVars: seq<string>) returns (m: map<string, string>)
    requires WellFormed(envVars)
    ensures m == EnvMap(envVars)
  {
    m := map[];
    for i := 0 to |envVars|
      invariant m == EnvMap(envVars[..i])
    {
      var p := Split(envVars[i]);
      assert envVars[..i + 1][..i] == envVars[..i];
      m := m[p.0 := p.1];
    }
    assert envVars[..|envVars|] == envVars;
  }

  /** `A=1`, `B=x=y`, `A=2`: the value keeps its `=`, and the second `A` wins. */
  lemma EnvExample()
    ensures WellFormed(["A=1", "B=x=y", "A=2"])
    ensures EnvMap(["A=1", "B=x=y", "A=2"]) == map["A" := "2", "B" := "x=y"]
  {
    SplitJoin("A", "1");
    SplitJoin("B", "x=y");
    SplitJoin("A", "2");
    assert "A" + "=" + "1" == "A=1";
    assert "B" + "=" + "x=y" == "B=x=y";
    assert "A" + "=" + "2" == "A=2";
    var es := ["A=1", "B=x=y", "A=2"];
    assert es[..2][..1] == ["A=1"];
    assert es[..2] == ["A=1", "B=x=y"];
    assert ["A=1"][..0] == [];
  }
}

=== FILE: fileformat.dfy ===
/**
 * `getFileFormat`: the input format chosen from the input file's path. The extension decides,
 * compared in lower case; only a path whose extension names no format is then matched, by its
 * base name, against the dotenv pattern `^\.env(\..+)?$`.
 *
 * `filepath.Ext` and `filepath.Base` are modelled for slash-separated paths.
 */
module FileFormat {
  import opened Wrappers

  datatype InputType = TOML | JSON | JSONNET | YAML | ENV | DOTENV | HCL

  /** `filepath.Ext`: the suffix from the last dot of the last path element, or "" if it has no dot. */
  function Ext(path: string): (r: string)
    ensures |r| <= |path| && r == path[|path| - |r|..]
    ensures r != "" ==> r[0] == '.' && forall i :: 1 <= i < |r| ==> r[i] != '.' && r[i] != '/'
    ensures r == "" ==> forall i :: 0 <= i < |path| && path[i] == '.' ==> '/' in path[i + 1..]
  {
    if path == "" then ""
    else
      var c := path[|path| - 1];
      if c == '/' then ""
      else if c == '.' then "."
      else
        var r := Ext(path[..|path| - 1]);
        assert forall i :: 0 <= i < |path| - 1 ==> path[..|path| - 1][i] == path[i];
        if r == "" then "" else r + [c]
  }

  /** `path` with every trailing slash removed. */
  function TrimTrailingSlashes(path: string): (r: string)
    ensures r <= path
    ensures r == "" || r[|r| - 1] != '/'
    ensures forall i :: |r| <= i < |path| ==> path[i] == '/'
  {
    if path != "" && path[|path| - 1] == '/' then TrimTrailingSlashes(path[..|path| - 1]) else path
  }

  /** The part of `path` after its last slash. */
  function LastElement(path: string): (r: string)
    ensures |r| <= |path| && r == path[|path| - |r|..]
    ensures '/' !in r
    ensures |r| < |path| ==> path[|path| - |r| - 1] == '/'
  {
    if path == "" || path[|path| - 1] == '/' then ""
    else LastElement(path[..|path| - 1]) + [path[|path| - 1]]
  }

  /** `filepath.Base`: the last element, after trailing slashes are removed. */
  function Base(path: string): (r: string)
    ensures r != ""
    ensures '/' in r ==> r == "/"
  {
    if path == "" then "."
    else
      var trimmed := TrimTrailingSlashes(path);
      if trimmed == "" then "/" else LastElement(trimmed)
  }

  /** `strings.ToLower` on ASCII letters (no other character lowers to a letter of an extension below). */
  function LowerChar(c: char): char {
    if 'A' <= c <= 'Z' then (c as int + 32) as char else c
  }

  function Lower(s: string): (r: string)
    ensures |r| == |s| && forall i :: 0 <= i < |s| ==> r[i] == LowerChar(s[i])
  {
    seq(|s|, i requires 0 <= i < |s| => LowerChar(s[i]))
  }

  /** The format a lower-case extension names, if any. */
  function FormatOfExtension(ext: string): Option<InputType> {
    match ext
    case ".toml" => Some(TOML)
    case ".json" => Some(JSON)
    case ".jsonnet" => Some(JSONNET)
    case ".yaml" => Some(YAML)
    case ".yml" => Some(YAML)
    case ".hcl" => Some(HCL)
    case _ => None
  }

  /** `^\.env(\..+)?$` (RE2: `.` matches any character but a newline). */
  predicate IsDotenvName(name: string) {
    || name == ".env"
    || (|name| > 5 && name[..5] == ".env." && forall i :: 5 <= i < |name| ==> name[i] != '\n')
  }

  /**
   * `IsDotenvName` agrees with the pattern read directly: `.env`, optionally followed by a
   * dot and at least one more character, none of them a newline.
   */
  lemma DotenvPattern(name: string)
    ensures IsDotenvName(name) <==>
      name == ".env" || exists rest :: rest != [] && '\n' !in rest && name == ".env." + rest
  {
    if |name| > 5 && name[..5] == ".env." && forall i :: 5 <= i < |name| ==> name[i] != '\n' {
      var rest := name[5..];
      assert name == ".env." + rest;
      assert '\n' !in rest by {
        forall k | 0 <= k < |rest| ensures rest[k] != '\n' {
          assert rest[k] == name[5 + k];
        }
      }
    }
    if exists rest :: rest != [] && '\n' !in rest && name == ".env." + rest {
      var rest :| rest != [] && '\n' !in rest && name == ".env." + rest;
      assert name[..5] == ".env.";
      forall i | 5 <= i < |name| ensures name[i] != '\n' {
        assert name[i] == rest[i - 5];
      }
    }
  }

  function UnsupportedFileType(fileName: string): string {
    "unsupported file type: \"" + fileName + "\"\n"
  }

  /** `getFileFormat`: never the environment, and refused only as an unsupported file type. */
  function GetFileFormat(filePath: string): (r: Result<InputType, string>)
    ensures r.Ok? ==> r.value != ENV
    ensures r.Err? ==> r.error == UnsupportedFileType(Base(filePath))
  {
    match FormatOfExtension(Lower(Ext(filePath)))
    case Some(t) => Ok(t)
    case None =>
      var fileName := Base(filePath);
      if IsDotenvName(fileName) then Ok(DOTENV) else Err(UnsupportedFileType(fileName))
  }

  /** An extension as it is appended to a file name: a dot, then neither dots nor slashes. */
  predicate PlainExtension(ext: string) {
    ext != "" && ext[0] == '.' && forall i :: 1 <= i < |ext| ==> ext[i] != '.' && ext[i] != '/'
  }

  /** `filepath.Ext` returns exactly the extension appended to a path. */
  lemma {:induction false} ExtOfAppended(stem: string, ext: string)
    requires PlainExtension(ext)
    ensures Ext(stem + ext) == ext
    decreases |ext|
  {
    var path := stem + ext;
    if |ext| > 1 {
      var shorter := ext[..|ext| - 1];
      assert path[..|path| - 1] == stem + shorter;
      ExtOfAppended(stem, shorter);
      assert shorter + [ext[|ext| - 1]] == ext;
    }
  }

  lemma {:induction false} LastElementOfAppended(dir: string, name: string)
    requires dir == "" || dir[|dir| - 1] == '/'
    requires '/' !in name
    ensures LastElement(dir + name) == name
    decreases |name|
  {
    if name != "" {
      var shorter := name[..|name| - 1];
      assert (dir + name)[..|dir + name| - 1] == dir + shorter;
      LastElementOfAppended(dir, shorter);
      assert shorter + [name[|name| - 1]] == name;
    }
  }

  /** `filepath.Base` returns the file name that ends a path. */
  lemma BaseOfAppended(dir: string, name: string)
    requires dir == "" || dir[|dir| - 1] == '/'
    requires name != "" && '/' !in name
    ensures Base(dir + name) == name
  {
    var path := dir + name;
    assert path[|path| - 1] == name[|name| - 1];
    assert TrimTrailingSlashes(path) == path;
    LastElementOfAppended(dir, name);
  }

  /**
   * A file whose extension names a format gets that format, whatever the case of its
   * letters and whatever the rest of the name: `.yaml` and `.yml` both give YAML, and
   * `.env.json` is JSON, not dotenv.
   */
  lemma FormatByExtension(stem: string, ext: string)
    requires PlainExtension(ext) && FormatOfExtension(Lower(ext)).Some?
    ensures GetFileFormat(stem + ext) == Ok(FormatOfExtension(Lower(ext)).value)
  {
    ExtOfAppended(stem, ext);
  }

  /**
   * Dotenv is chosen exactly when the extension names no format and the base name matches
   * the dotenv pattern; no extension ever selects it.
   */
  lemma DotenvIff(filePath: string)
    ensures GetFileFormat(filePath) == Ok(DOTENV) <==>
      FormatOfExtension(Lower(Ext(filePath))).None? && IsDotenvName(Base(filePath))
  {
  }

  /**
   * Every other path is refused, with the base name in the message: the formats accepted
   * are exactly those of the six extensions and of the dotenv names.
   */
  lemma UnsupportedIff(filePath: string)
    ensures GetFileFormat(filePath).Err? <==>
      FormatOfExtension(Lower(Ext(filePath))).None? && !IsDotenvName(Base(filePath))
    ensures GetFileFormat(filePath).Err? ==> GetFileFormat(filePath).error == UnsupportedFileType(Base(filePath))
  {
  }

  /** `.env` on its own names no format. */
  lemma EnvExtensionUnknown()
    ensures FormatOfExtension(Lower(".env")).None?
  {
    assert Lower(".env") == ".env";
  }

  /** A path that ends in a file name with an extension naming no format is classified by that name. */
  lemma ByBaseName(dir: string, name: string, stem: string, ext: string)
    requires dir == "" || dir[|dir| - 1] == '/'
    requires name != "" && '/' !in name
    requires PlainExtension(ext) && FormatOfExtension(Lower(ext)).None?
    requires dir + name == stem + ext
    ensures GetFileFormat(dir + name) ==
      if IsDotenvName(name) then Ok(DOTENV) else Err(UnsupportedFileType(name))
  {
    ExtOfAppended(stem, ext);
    BaseOfAppended(dir, name);
  }

  /** A name that does not start with a dot never matches the dotenv pattern. */
  lemma UndottedNotDotenv(name: string)
    requires name != "" && name[0] != '.'
    ensures !IsDotenvName(name)
  {
    assert name != ".env" by { assert ".env"[0] == '.'; }
    if |name| > 5 {
      assert name[..5][0] != ".env."[0];
    }
  }

  /** `dir/.env` is a dotenv file. */
  lemma DotenvFile(dir: string)
    requires dir == "" || dir[|dir| - 1] == '/'
    ensures GetFileFormat(dir + ".env") == Ok(DOTENV)
  {
    EnvExtensionUnknown();
    ByBaseName(dir, ".env", dir, ".env");
  }

  /** `dir/.env.<suffix>` is a dotenv file, unless the suffix is itself a format's extension. */
  lemma DotenvSuffixFile(dir: string, suffix: string)
    requires dir == "" || dir[|dir| - 1] == '/'
    requires suffix != ""
    requires forall i :: 0 <= i < |suffix| ==> suffix[i] != '.' && suffix[i] != '/' && suffix[i] != '\n'
    requires FormatOfExtension(Lower("." + suffix)).None?
    ensures GetFileFormat(dir + ".env." + suffix) == Ok(DOTENV)
  {
    var name := ".env." + suffix;
    assert dir + ".env." + suffix == dir + name == (dir + ".env") + ("." + suffix);
    ByBaseName(dir, name, dir + ".env", "." + suffix);
    assert name[..5] == ".env.";
  }

  /** `settings.env` has the unknown extension `.env` and is not a dotenv name: it is refused. */
  lemma SettingsEnvRefused()
    ensures GetFileFormat("conf/settings.env") == Err(UnsupportedFileType("settings.env"))
  {
    EnvExtensionUnknown();
    assert "conf/" + "settings.env" == "conf/settings" + ".env" == "conf/settings.env";
    ByBaseName("conf/", "settings.env", "conf/settings", ".env");
    UndottedNotDotenv("settings.env");
  }

  /** Extensions are compared in lower case: `app.YML` is YAML. */
  lemma UpperCaseExtension()
    ensures GetFileFormat("conf/app.YML") == Ok(YAML)
  {
    assert Lower(".YML") == ".yml";
    assert "conf/app" + ".YML" == "conf/app.YML";
    FormatByExtension("conf/app", ".YML");
  }

  /** The extension wins over the dotenv pattern: `.env.json` is JSON. */
  lemma ExtensionBeforeDotenv()
    ensures GetFileFormat(".env.json") == Ok(JSON)
  {
    assert Lower(".json") == ".json";
    assert ".env" + ".json" == ".env.json";
    FormatByExtension(".env", ".json");
  }
}

=== FILE: gotypes.dfy ===
/**
 * The part of a Go syntax tree that the schema extractor looks at: type expressions,
 * struct fields with their raw tag literals, top-level type declarations, the files of a
 * parsed package as `findType` scans them, and the name -> declaration index that scan defines.
 */
module GoTypes {
  import opened Wrappers

  /** A type expression, with exactly the node kinds the walker tells apart. */
  datatype TypeExpr =
    | Ident(name: string)                  // `string`, `Config`
    | Struct(fields: seq<Field>)           // `struct { ... }`
    | Array(elem: TypeExpr)                // `[N]T` and `[]T`
    | Map(key: TypeExpr, value: TypeExpr)  // `map[K]V`
    | Chan                                 // `chan T`: never entered
    | Func                                 // `func(...) ...`: never entered
    | Other                                // `*T`, `pkg.T`, `interface{...}`, ...: falls through

  /**
   * One entry of a struct's field list: the declared names (empty for an embedded
   * field), the type, and the raw tag literal as written, quotes included (None when
   * the field has no tag).
   */
  datatype Field = Field(names: seq<string>, typ: TypeExpr, tag: Option<string>)

  /** A top-level `type Name <expr>` declaration. */
  datatype TypeSpec = TypeSpec(name: string, typ: TypeExpr)

  /** The kind of a scope object (`ast.ObjKind`); only `Typ` objects are type declarations. */
  datatype ObjKind = Bad | Pkg | Con | Typ | Var | Fun | Lbl

  /**
   * An entry of a file's scope: its kind, its name and, for a `Typ` object, the type
   * expression of the `TypeSpec` it declares (`Other` for the other kinds).
   */
  datatype Object = Object(kind: ObjKind, name: string, typ: TypeExpr)

  /**
   * The files of a parsed package, each the objects of its scope, both in the order the
   * scan visits them (Go leaves the order of both maps unspecified, so any order is allowed).
   */
  type Files = seq<seq<Object>>

  predicate Declares(o: Object, name: string) {
    o.kind == Typ && o.name == name
  }

  /** The first declaration of `name` among a file's objects. */
  function FirstInFile(objs: seq<Object>, name: string): Option<TypeSpec> {
    if objs == [] then None
    else if Declares(objs[0], name) then Some(TypeSpec(name, objs[0].typ))
    else FirstInFile(objs[1..], name)
  }

  /** The first declaration of `name` in the package, file by file. */
  function FirstType(files: Files, name: string): Option<TypeSpec> {
    if files == [] then None
    else match FirstInFile(files[0], name)
      case Some(t) => Some(t)
      case None => FirstType(files[1..], name)
  }

  /**
   * `findType`: scans the files and their scope objects in order, skipping objects that are
   * not types or have another name, and returns the first declaration of `name`.
   */
  method FindTypeIn(files: Files, name: string) returns (r: Option<TypeSpec>)
    ensures r == FirstType(files, name)
    ensures r == FindType(Index(files), name)
  {
    IndexFindsFirst(files, name);
    for i := 0 to |files|
      invariant FirstType(files, name) == FirstType(files[i..], name)
    {
      var objs := files[i];
      assert files[i..][1..] == files[i + 1..];
      for j := 0 to |objs|
        invariant FirstInFile(objs, name) == FirstInFile(objs[j..], name)
      {
        var obj := objs[j];
        if obj.kind != Typ {
          assert objs[j..][1..] == objs[j + 1..];
          continue;
        }
        if obj.name != name {
          assert objs[j..][1..] == objs[j + 1..];
          continue;
        }
        return Some(TypeSpec(obj.name, obj.typ));
      }
      assert objs[|objs|..] == [];
    }
    assert files[|files|..] == [];
    return None;
  }

  /** A parsed package reduced to an index: every declared type name and its declaration. */
  type Package = map<string, TypeExpr>

  function FindType(pkg: Package, name: string): Option<TypeSpec> {
    if name in pkg then Some(TypeSpec(name, pkg[name])) else None
  }

  /** The index of one file: a name's first `Typ` object wins. */
  function FileIndex(objs: seq<Object>): Package {
    if objs == [] then map[]
    else
      var rest := FileIndex(objs[1..]);
      if objs[0].kind == Typ then rest[objs[0].name := objs[0].typ] else rest
  }

  /** The package index the walker looks names up in: the first file declaring a name wins. */
  function Index(files: Files): Package {
    if files == [] then map[] else Index(files[1..]) + FileIndex(files[0])
  }

  lemma {:induction false} FileIndexFindsFirst(objs: seq<Object>, name: string)
    ensures FindType(FileIndex(objs), name) == FirstInFile(objs, name)
  {
    if objs != [] {
      FileIndexFindsFirst(objs[1..], name);
    }
  }

  /** Looking a name up in the index gives exactly what `findType`'s scan returns. */
  lemma {:induction false} IndexFindsFirst(files: Files, name: string)
    ensures FindType(Index(files), name) == FirstType(files, name)
  {
    if files != [] {
      FileIndexFindsFirst(files[0], name);
      IndexFindsFirst(files[1..], name);
    }
  }

  /**
   * The first declaration in a file: found iff some object declares the name, and then it is
   * the declaration of the earliest such object.
   */
  lemma {:induction false} FirstInFileFound(objs: seq<Object>, name: string)
    ensures FirstInFile(objs, name).None? <==> forall j :: 0 <= j < |objs| ==> !Declares(objs[j], name)
    ensures FirstInFile(objs, name).Some? ==>
      exists j :: 0 <= j < |objs| && Declares(objs[j], name)
        && FirstInFile(objs, name) == Some(TypeSpec(name, objs[j].typ))
        && forall k :: 0 <= k < j ==> !Declares(objs[k], name)
  {
    if objs != [] {
      FirstInFileFound(objs[1..], name);
      if !Declares(objs[0], name) && FirstInFile(objs, name).Some? {
        var j :| 0 <= j < |objs[1..]| && Declares(objs[1..][j], name)
          && FirstInFile(objs[1..], name) == Some(TypeSpec(name, objs[1..][j].typ))
          && forall k :: 0 <= k < j ==> !Declares(objs[1..][k], name);
        assert forall k :: 0 <= k < j + 1 ==> !Declares(objs[k], name) by {
          forall k | 0 < k < j + 1 ensures !Declares(objs[k], name) {
            assert objs[k] == objs[1..][k - 1];
          }
        }
      }
      if !Declares(objs[0], name) && FirstInFile(objs, name).None? {
        forall j | 0 <= j < |objs| ensures !Declares(objs[j], name) {
          if j > 0 { assert objs[j] == objs[1..][j - 1]; }
        }
      }
    }
  }

  /**
   * `findType` finds a name iff some file declares it as a type, and then returns the
   * declaration of the first such object: in the earliest file, the earliest object.
   */
  lemma {:induction false} FirstTypeFound(files: Files, name: string)
    ensures FirstType(files, name).None? <==>
      forall i, j :: 0 <= i < |files| && 0 <= j < |files[i]| ==> !Declares(files[i][j], name)
    ensures FirstType(files, name).Some? ==>
      exists i, j :: 0 <= i < |files| && 0 <= j < |files[i]| && Declares(files[i][j], name)
        && FirstType(files, name) == Some(TypeSpec(name, files[i][j].typ))
        && (forall k, l :: 0 <= k < i && 0 <= l < |files[k]| ==> !Declares(files[k][l], name))
        && (forall l :: 0 <= l < j ==> !Declares(files[i][l], name))
  {
    if files != [] {
      FirstInFileFound(files[0], name);
      FirstTypeFound(files[1..], name);
      if FirstInFile(files[0], name).None? {
        if FirstType(files, name).Some? {
          var i, j :| 0 <= i < |files[1..]| && 0 <= j < |files[1..][i]| && Declares(files[1..][i][j], name)
            && FirstType(files[1..], name) == Some(TypeSpec(name, files[1..][i][j].typ))
            && (forall k, l :: 0 <= k < i && 0 <= l < |files[1..][k]| ==> !Declares(files[1..][k][l], name))
            && (forall l :: 0 <= l < j ==> !Declares(files[1..][i][l], name));
          assert files[1..][i] == files[i + 1];
          forall k, l | 0 <= k < i + 1 && 0 <= l < |files[k]| ensures !Declares(files[k][l], name) {
            if k > 0 { assert files[k] == files[1..][k - 1]; }
          }
        } else {
          forall i, j | 0 <= i < |files| && 0 <= j < |files[i]| ensures !Declares(files[i][j], name) {
            if i > 0 { assert files[i] == files[1..][i - 1]; }
          }
        }
      }
    }
  }

  /**
   * When exactly one object of the package declares `name`, the index holds that
   * declaration, wherever it is.
   */
  lemma SoleDeclaration(files: Files, name: string, i: nat, j: nat)
    requires i < |files| && j < |files[i]| && Declares(files[i][j], name)
    requires forall k, l :: 0 <= k < |files| && 0 <= l < |files[k]| && Declares(files[k][l], name) ==> k == i && l == j
    ensures FindType(Index(files), name) == Some(TypeSpec(name, files[i][j].typ))
  {
    FirstTypeFound(files, name);
    IndexFindsFirst(files, name);
  }

  /**
   * A variable named like a type, in an earlier file, is skipped, and a type declared in two
   * later files is taken from the first of them.
   */
  lemma FirstFileWins()
    ensures var files := [[Object(Var, "T", Other)],
                          [Object(Typ, "T", Ident("int"))],
                          [Object(Typ, "T", Struct([]))]];
      FindType(Index(files), "T") == Some(TypeSpec("T", Ident("int")))
  {
    var files := [[Object(Var, "T", Other)],
                  [Object(Typ, "T", Ident("int"))],
                  [Object(Typ, "T", Struct([]))]];
    IndexFindsFirst(files, "T");
    assert files[0][1..] == [];
    assert files[1..] == [files[1], files[2]];
    assert files[1..][1..] == [files[2]];
  }

  /** The 19 predeclared names `isTypePrimitive` accepts. */
  const PrimitiveNames: set<string> := {
    "string", "bool", "byte", "rune", "uintptr",
    "int", "int8", "int16", "int32", "int64",
    "uint", "uint8", "uint16", "uint32", "uint64",
    "float32", "float64", "complex64", "complex128"
  }

  predicate IsPrimitive(name: string) {
    name in PrimitiveNames
  }

  /** The identifiers of `e` the walker hands to its callback before entering any declaration. */
  function Idents(e: TypeExpr): set<string> {
    match e
    case Ident(n) => {n}
    case Struct(fs) => set i, n | 0 <= i < |fs| && n in Idents(fs[i].typ) :: n
    case Array(t) => Idents(t)
    case Map(k, v) => Idents(k) + Idents(v)
    case _ => {}
  }

  /**
   * The walker re-enters a declaration every time it meets its name, so it only stops
   * when the declarations it reaches refer to each other without a cycle. `rank` witnesses
   * that for the ranked declarations: every declared name one of them refers to is ranked
   * lower. Declarations the walk never reaches need no rank.
   */
  ghost predicate Ranked(pkg: Package, rank: map<string, nat>) {
    forall n :: n in pkg && n in rank ==> Below(pkg, rank, pkg[n], rank[n])
  }

  /** Every declared name `e` refers to ranks below `bound`. */
  ghost predicate Below(pkg: Package, rank: map<string, nat>, e: TypeExpr, bound: nat) {
    forall m :: m in Idents(e) && m in pkg ==> m in rank && rank[m] < bound
  }
}

=== FILE: outcome.dfy ===
/**
 * How `run` reads the outcome of the generated program. A failure to run it (including a
 * non-zero exit) is the single error. Otherwise the combined output, with trailing newlines
 * trimmed, is one error if it starts with `StdoutErrPrefix`, and success in every other
 * case, however much else it printed.
 */
module Outcome {
  const StdoutErrPrefix := "VALFILE: "

  /** What `cmd.CombinedOutput` returned: the error it failed with, or the output. */
  datatype ExecResult = RunFailed(err: string) | Exited(output: string)

  /** `bytes.TrimRight(s, "\n")`. */
  function TrimNewlines(s: string): (r: string)
    ensures r <= s
    ensures r == "" || r[|r| - 1] != '\n'
    ensures forall i :: |r| <= i < |s| ==> s[i] == '\n'
  {
    if s != [] && s[|s| - 1] == '\n' then TrimNewlines(s[..|s| - 1]) else s
  }

  /** `n` newline characters. */
  function Newlines(n: nat): (r: string)
    ensures |r| == n && forall i :: 0 <= i < n ==> r[i] == '\n'
  {
    seq(n, i => '\n')
  }

  /** Trimming removes exactly the newlines appended to text that does not end in one. */
  lemma {:induction false} TrimAppendedNewlines(s: string, n: nat)
    requires s == "" || s[|s| - 1] != '\n'
    ensures TrimNewlines(s + Newlines(n)) == s
  {
    if n > 0 {
      var t := s + Newlines(n);
      assert t[..|t| - 1] == s + Newlines(n - 1);
      TrimAppendedNewlines(s, n - 1);
    } else {
      assert s + Newlines(0) == s;
    }
  }

  predicate HasPrefix(s: string, prefix: string) {
    |prefix| <= |s| && s[..|prefix|] == prefix
  }

  /** The errors `run` returns once the generated program was started. */
  function Classify(res: ExecResult): (errs: seq<string>)
    ensures |errs| <= 1
    ensures res.RunFailed? ==> errs == [res.err]
    ensures res.Exited? ==> (errs != [] <==> HasPrefix(TrimNewlines(res.output), StdoutErrPrefix))
    ensures res.Exited? && errs != [] ==>
      StdoutErrPrefix + errs[0] == TrimNewlines(res.output)
  {
    match res
    case RunFailed(err) => [err]
    case Exited(output) =>
      var trimmed := TrimNewlines(output);
      if HasPrefix(trimmed, StdoutErrPrefix) then
        assert trimmed == StdoutErrPrefix + trimmed[|StdoutErrPrefix|..];
        [trimmed[|StdoutErrPrefix|..]]
      else []
  }

  /**
   * A message the generated program prints behind the prefix, followed by any number of
   * newlines, comes back as the one error, unchanged.
   */
  lemma ReportedMessage(msg: string, n: nat)
    requires msg == "" || msg[|msg| - 1] != '\n'
    ensures Classify(Exited(StdoutErrPrefix + msg + Newlines(n))) == [msg]
  {
    var s := StdoutErrPrefix + msg;
    assert s[|s| - 1] != '\n' by {
      if msg == "" {
        assert s == StdoutErrPrefix;
      } else {
        assert s[|s| - 1] == msg[|msg| - 1];
      }
    }
    TrimAppendedNewlines(s, n);
    assert s[..|StdoutErrPrefix|] == StdoutErrPrefix;
  }

  /** Output that does not start with the prefix counts as success, even when it is not empty. */
  lemma UnprefixedOutputSucceeds(output: string)
    requires !HasPrefix(output, StdoutErrPrefix)
    ensures Classify(Exited(output)) == []
  {
  }

  /** `VAL` shares the prefix's first letters and still counts as success. */
  lemma PartialPrefixSucceeds()
    ensures Classify(Exited("VAL\n")) == []
  {
    assert "VAL\n"[..3] == "VAL";
    UnprefixedOutputSucceeds("VAL\n");
  }
}

=== FILE: params.dfy ===
/**
 * The checks `parseCLIParameters` applies once the flags are parsed: a package directory and
 * a type name are required, and exactly one of `-env` and `-f` selects the input.
 */
module CliParams {
  import opened Wrappers

  datatype Params = Params(
    packageDir: string,
    typeName: string,
    inputFile: string,
    inputEnv: bool,
    noTagCheck: bool)

  /** The flag defaults: `-p .`, every other flag empty or unset. */
  const Defaults := Params(".", "", "", false, false)

  const MissingPackageDir := "missing package directory"
  const MissingTypeName := "missing type name"
  const MissingInputFile := "missing input file"
  const ConflictingInputs :=
    "conflicting parameters, -env and -f are mutually exlusive. " +
    "Please use either the -env option or the -f option, but not both."

  /** Exactly one input source is selected: the environment, or a file. */
  predicate OneInput(p: Params) {
    p.inputEnv <==> p.inputFile == ""
  }

  /**
   * The checks run in a fixed order and the first that fails is reported alone; parameters
   * that pass every check are returned unchanged.
   */
  function CheckParams(p: Params): (r: Result<Params, string>)
    ensures r.Ok? <==> p.packageDir != "" && p.typeName != "" && OneInput(p)
    ensures r.Ok? ==> r.value == p
    ensures r == Err(MissingPackageDir) <==> p.packageDir == ""
    ensures r == Err(MissingTypeName) <==> p.packageDir != "" && p.typeName == ""
    ensures r == Err(MissingInputFile) <==>
      p.packageDir != "" && p.typeName != "" && !p.inputEnv && p.inputFile == ""
    ensures r == Err(ConflictingInputs) <==>
      p.packageDir != "" && p.typeName != "" && p.inputEnv && p.inputFile != ""
  {
    if p.packageDir == "" then Err(MissingPackageDir)
    else if p.typeName == "" then Err(MissingTypeName)
    else if !p.inputEnv && p.inputFile == "" then Err(MissingInputFile)
    else if p.inputEnv && p.inputFile != "" then Err(ConflictingInputs)
    else Ok(p)
  }

  /** `-p dir -env` without `-t`: the missing type name is reported. */
  lemma TypeNameRequired(dir: string)
    requires dir != ""
    ensures CheckParams(Defaults.(packageDir := dir, inputEnv := true)) == Err(MissingTypeName)
  {
  }

  /** `-p dir -t T -env` and `-p dir -t T -f file` are accepted as given. */
  lemma EitherInputAccepted(dir: string, typeName: string, file: string)
    requires dir != "" && typeName != "" && file != ""
    ensures var env := Defaults.(packageDir := dir, typeName := typeName, inputEnv := true);
      CheckParams(env) == Ok(env)
    ensures var f := Defaults.(packageDir := dir, typeName := typeName, inputFile := file);
      CheckParams(f) == Ok(f)
    ensures CheckParams(Defaults.(packageDir := dir, typeName := typeName)) == Err(MissingInputFile)
  {
  }
}

=== FILE: run.dfy ===
/**
 * `run`: the phases in the order they gate each other. The first phase that fails decides
 * the result. Parameters, then the input format, then the package, then the root type and
 * its rendering, then the closure's undefined types, then the input itself, then the tag
 * check, then the workspace, and finally the generated program's own verdict.
 *
 * Everything `run` obtains from outside is part of a `World`. That covers the flag parser's
 * outcome, the parsed package, the renderer, the tag library, the outcome of reading the
 * input, of preparing the workspace and of running the program.
 */
module Run {
  import opened Wrappers
  import opened GoTypes
  import opened Closure
  import opened ClosureProps
  import opened Tags
  import opened TagPhase
  import opened FileFormat
  import opened CliParams
  import opened Outcome

  /**
   * How reading (and, for dotenv and Jsonnet, decoding) the input file went. TOML, JSON, YAML
   * and HCL input is only read by `run` (the generated program decodes it), so for those
   * formats `DecodeFailed` stands for no outcome `run` can observe and counts as loaded.
   */
  datatype InputLoad = Loaded | ReadFailed(err: string) | DecodeFailed(err: string)

  /** What `run` gets from the flag parser, the Go toolchain, the file system and the process. */
  datatype World<!T> = World(
    flags: Result<Params, string>,       // `f.Parse(args[1:])`: the flags, or its error
    parsed: Result<Files, string>,       // `parsePackage`: the files' scopes, or its error
    pkgName: string,
    render: Renderer,
    lib: TagLibrary<T>,
    load: InputLoad,
    workspace: Option<string>,           // the error creating or filling the temporary directory
    exec: ExecResult)

  datatype Stage =
    | BadParameters | BadInputFormat | BadPackage | RootNotFound | RootNotRendered
    | UndefinedTypes | BadInput | BadTags | BadWorkspace | Executed

  /** The declarations of the parsed package, as the walker looks them up. */
  function Decls<T>(w: World<T>): Package
    requires w.parsed.Ok?
  {
    Index(w.parsed.value)
  }

  /**
   * `rank` witnesses that the declarations the walk can reach from the root refer to each
   * other without a cycle: ranked declarations refer only to lower-ranked ones, and the root
   * is ranked once it has rendered, the point from which `run` walks it.
   */
  ghost predicate RankedFor<T>(w: World<T>, rank: map<string, nat>) {
    w.parsed.Ok? ==>
      && Ranked(Decls(w), rank)
      && (RootRendered(w) ==> w.flags.value.typeName in rank)
  }

  function TypeNotFound(typeName: string, pkgName: string): string {
    "type " + typeName + " not found in package " + pkgName + "\n"
  }

  /** `parseCLIParameters`: the flag parser's error, or the parameters once checked. */
  function ParsedParams(flags: Result<Params, string>): Result<Params, string> {
    if flags.Err? then flags else CheckParams(flags.value)
  }

  /** The input format: the environment with `-env`, otherwise the input file's format. */
  function InputFormat(p: Params): Result<InputType, string> {
    if p.inputEnv then Ok(ENV) else GetFileFormat(p.inputFile)
  }

  /**
   * The error reading the input of `format` ends with, if any: none for the environment,
   * a failed read for every file format, a failed decode only for the two formats `run`
   * decodes itself; Jsonnet reports both under one prefix.
   */
  function LoadError(format: InputType, load: InputLoad): (r: Option<string>)
    ensures r.Some? <==>
      format != ENV && (load.ReadFailed? || (load.DecodeFailed? && format in {DOTENV, JSONNET}))
    ensures r.Some? && format == JSONNET ==> r.value == "evaluating Jsonnet: " + load.err
    ensures r.Some? && format != JSONNET && load.ReadFailed? ==>
      r.value == "reading input file: " + load.err
    ensures r.Some? && format == DOTENV && load.DecodeFailed? ==>
      r.value == "parsing dotenv file: " + load.err
  {
    match (format, load)
    case (ENV, _) => None
    case (_, Loaded) => None
    case (DOTENV, ReadFailed(e)) => Some("reading input file: " + e)
    case (DOTENV, DecodeFailed(e)) => Some("parsing dotenv file: " + e)
    case (JSONNET, ReadFailed(e)) => Some("evaluating Jsonnet: " + e)
    case (JSONNET, DecodeFailed(e)) => Some("evaluating Jsonnet: " + e)
    case (_, ReadFailed(e)) => Some("reading input file: " + e)
    case (_, DecodeFailed(_)) => None
  }

  /** Parameters, format and package are fine, and the root type is declared and renders. */
  predicate RootRendered<T>(w: World<T>) {
    && ParsedParams(w.flags).Ok?
    && InputFormat(w.flags.value).Ok?
    && w.parsed.Ok?
    && w.flags.value.typeName in Decls(w)
    && w.render(TypeSpec(w.flags.value.typeName, Decls(w)[w.flags.value.typeName])).Ok?
  }

  function RootOf<T>(w: World<T>): TypeSpec
    requires RootRendered(w)
  {
    TypeSpec(w.flags.value.typeName, Decls(w)[w.flags.value.typeName])
  }

  /** The closure `run` collects from the root. */
  function ClosureFor<T>(w: World<T>, ghost rank: map<string, nat>): WalkState
    requires RootRendered(w) && RankedFor(w, rank)
  {
    ClosureOf(Decls(w), w.render, rank, w.flags.value.typeName, w.render(RootOf(w)).value)
  }

  /** The identifiers the walk from the root meets. */
  ghost function MetFor<T>(w: World<T>, rank: map<string, nat>): set<string>
    requires RootRendered(w) && RankedFor(w, rank)
  {
    var root := w.flags.value.typeName;
    Refs(Decls(w), w.render, rank, rank[root], Decls(w)[root])
  }

  /** The identifiers the walk from the root meets, in meeting order. */
  ghost function MetSeqFor<T>(w: World<T>, rank: map<string, nat>): seq<string>
    requires RootRendered(w) && RankedFor(w, rank)
  {
    var root := w.flags.value.typeName;
    MetSeq(Decls(w), w.render, rank, rank[root], Decls(w)[root])
  }

  function TagKey<T>(w: World<T>): string
    requires RootRendered(w)
  {
    ExpectedTagKey(InputFormat(w.flags.value).value)
  }

  /** The phase at which `run` stops. */
  function Gate<T>(w: World<T>, ghost rank: map<string, nat>): Stage
    requires RankedFor(w, rank)
  {
    if ParsedParams(w.flags).Err? then BadParameters
    else if InputFormat(w.flags.value).Err? then BadInputFormat
    else if w.parsed.Err? then BadPackage
    else if w.flags.value.typeName !in Decls(w) then RootNotFound
    else if !RootRendered(w) then RootNotRendered
    else
      var c := ClosureFor(w, rank);
      if c.errs != [] then UndefinedTypes
      else if LoadError(InputFormat(w.flags.value).value, w.load).Some? then BadInput
      else if !w.flags.value.noTagCheck
              && exists n :: n in c.specs && TagViolations(c.specs[n], TagKey(w), w.lib) != []
      then BadTags
      else if w.workspace.Some? then BadWorkspace
      else Executed
  }

  /**
   * `run`, driving the closure builder and the tag phase. Each stage reports its own errors
   * and nothing else: one message for the early stages, every undefined type the walk meets,
   * every tag violation (in the map's order), or the program's verdict.
   */
  method Run<T>(w: World<T>, ghost rank: map<string, nat>) returns (errs: seq<string>, stage: Stage)
    requires RankedFor(w, rank)
    ensures stage == Gate(w, rank)
    ensures stage == BadParameters ==> errs == [ParsedParams(w.flags).error]
    ensures stage == BadInputFormat ==> errs == [InputFormat(w.flags.value).error]
    ensures stage == BadPackage ==> errs == [w.parsed.error]
    ensures stage == RootNotFound ==> errs == [TypeNotFound(w.flags.value.typeName, w.pkgName)]
    ensures stage == RootNotRendered ==>
      var p := w.flags.value;
      errs == [RenderingFailed(w.render(TypeSpec(p.typeName, Decls(w)[p.typeName])).error)]
    ensures stage == UndefinedTypes ==> RootRendered(w) && errs == ClosureFor(w, rank).errs
    ensures stage == BadInput ==> errs == [LoadError(InputFormat(w.flags.value).value, w.load).value]
    ensures stage == BadTags ==>
      && RootRendered(w)
      && var c := ClosureFor(w, rank);
         multiset(errs) == AllViolations(c.specs, c.specs.Keys, TagKey(w), w.lib)
    ensures stage == BadWorkspace ==> errs == [w.workspace.value]
    ensures stage == Executed ==> errs == Classify(w.exec)
    ensures errs == [] <==> stage == Executed && Classify(w.exec) == []
  {
    var params := ParsedParams(w.flags);
    if params.Err? {
      return [params.error], BadParameters;
    }
    var p := params.value;
    var format := InputFormat(p);
    if format.Err? {
      return [format.error], BadInputFormat;
    }
    if w.parsed.Err? {
      return [w.parsed.error], BadPackage;
    }
    var files := w.parsed.value;
    var root := FindTypeIn(files, p.typeName);
    if root.None? {
      return [TypeNotFound(p.typeName, w.pkgName)], RootNotFound;
    }
    var rendered := w.render(root.value);
    if rendered.Err? {
      return [RenderingFailed(rendered.error)], RootNotRendered;
    }
    var builder := new ClosureBuilder(files, w.render, root.value, rendered.value);
    builder.Traverse(rank, rank[p.typeName], root.value.typ);
    if builder.errs != [] {
      return builder.errs, UndefinedTypes;
    }
    var loadError := LoadError(format.value, w.load);
    if loadError.Some? {
      return [loadError.value], BadInput;
    }
    var keys;
    errs, keys := CheckAllTags(builder.typeSpecs, p.noTagCheck, ExpectedTagKey(format.value), w.lib);
    if errs != [] {
      return errs, BadTags;
    }
    if w.workspace.Some? {
      return [w.workspace.value], BadWorkspace;
    }
    errs := Classify(w.exec);
    stage := Executed;
  }

  /**
   * Undefined types gate the run: past the closure, every identifier the walk met is
   * primitive or declared and renderable. A run stopped by the closure reports exactly the
   * failing identifiers it met, one message per meeting.
   */
  lemma UndefinedTypesGate<T>(w: World<T>, rank: map<string, nat>)
    requires RankedFor(w, rank)
    ensures Gate(w, rank) in {BadInput, BadTags, BadWorkspace, Executed} ==>
      RootRendered(w) && forall n :: n in MetFor(w, rank) ==> ErrorFor(Decls(w), w.render, n) == None
    ensures Gate(w, rank) == UndefinedTypes ==>
      RootRendered(w) && ClosureFor(w, rank).errs == ErrSeq(Decls(w), w.render, MetSeqFor(w, rank))
      && ReportsExactly(Decls(w), w.render, MetFor(w, rank), ClosureFor(w, rank).errs)
      && exists n :: n in MetFor(w, rank) && ErrorFor(Decls(w), w.render, n).Some?
  {
    if RootRendered(w) {
      ClosureContents(Decls(w), w.render, rank, w.flags.value.typeName, w.render(RootOf(w)).value);
    }
  }

  /** The tag check sees exactly the root and the collected declarations the walk met. */
  lemma TagCheckCoverage<T>(w: World<T>, rank: map<string, nat>)
    requires RankedFor(w, rank)
    requires RootRendered(w)
    ensures ClosureFor(w, rank).specs.Keys ==
      {w.flags.value.typeName} + CollectedIn(Decls(w), w.render, MetFor(w, rank))
  {
    ClosureContents(Decls(w), w.render, rank, w.flags.value.typeName, w.render(RootOf(w)).value);
  }

  /**
   * A run that reaches the workspace with the tag check on has every declaration of the
   * closure tagged for the input format; with the tag check off, the tag phase never stops it.
   */
  lemma TagCheckPassed<T>(w: World<T>, rank: map<string, nat>)
    requires RankedFor(w, rank)
    ensures Gate(w, rank) in {BadWorkspace, Executed} && !w.flags.value.noTagCheck ==>
      && RootRendered(w)
      && var c := ClosureFor(w, rank);
         forall n :: n in c.specs ==> TagViolations(c.specs[n], TagKey(w), w.lib) == []
    ensures RootRendered(w) && w.flags.value.noTagCheck ==> Gate(w, rank) != BadTags
  {
  }
}

=== FILE: run_examples.dfy ===
/** Whole runs of `run` on the shapes of the CLI tests: where each stops and what it reports. */
module RunExamples {
  import opened Wrappers
  import opened GoTypes
  import opened Closure
  import opened Tags
  import opened TagPhase
  import opened CliParams
  import opened Outcome
  import opened Run

  /** `type Config struct { Foo string }` */
  const Config := Struct([Field(["Foo"], Ident("string"), None)])
  const ConfigPkg: Package := map["Config" := Config]
  const ConfigRank: map<string, nat> := map["Config" := 0]
  /** The package's one file, declaring `Config`. */
  const ConfigFiles: Files := [[Object(Typ, "Config", Config)]]

  lemma ConfigIndex()
    ensures Index(ConfigFiles) == ConfigPkg
  {
    assert ConfigFiles[1..] == [];
    assert ConfigFiles[0][1..] == [];
    assert FileIndex(ConfigFiles[0]) == map["Config" := Config];
    assert Index(ConfigFiles) == Index([]) + FileIndex(ConfigFiles[0]);
  }

  /** The `World` of `valfile -p dir -t Config -env` over that package. */
  function EnvWorld<T>(render: Renderer, lib: TagLibrary<T>, exec: ExecResult): World<T> {
    World(Ok(Params("dir", "Config", "", true, false)), Ok(ConfigFiles), "main",
          render, lib, Loaded, None, exec)
  }

  /** `-p dir -env` without `-t` stops at the parameters with `missing type name`. */
  lemma MissingTypeNameRun<T>(w: World<T>, rank: map<string, nat>)
    requires w.flags == Ok(Defaults.(packageDir := "dir", inputEnv := true))
    requires RankedFor(w, rank)
    ensures Gate(w, rank) == BadParameters
    ensures ParsedParams(w.flags) == Err(MissingTypeName)
  {
  }

  /** A `string` field is primitive: the closure is the root alone and reports nothing. */
  lemma ConfigClosure(render: Renderer, rootDef: string)
    ensures Ranked(ConfigPkg, ConfigRank)
    ensures ClosureOf(ConfigPkg, render, ConfigRank, "Config", rootDef) ==
      Seed(TypeSpec("Config", Config), rootDef)
  {
    assert Idents(Config) == {"string"} by {
      assert "string" in Idents(Config.fields[0].typ);
    }
    assert IsPrimitive("string");
    var seed := Seed(TypeSpec("Config", Config), rootDef);
    assert Walk(ConfigPkg, render, ConfigRank, 0, Ident("string"), seed) == seed;
    assert Config.fields[..1][..0] == [];
    assert Config.fields[..1] == Config.fields;
  }

  /** The one violation of the untagged `Config` under `env`, as a multiset over its closure. */
  lemma ConfigViolations<T>(render: Renderer, lib: TagLibrary<T>, exec: ExecResult)
    requires render(TypeSpec("Config", Config)).Ok?
    ensures Index(ConfigFiles) == ConfigPkg && Ranked(ConfigPkg, ConfigRank)
    ensures var w := EnvWorld(render, lib, exec);
      && RootRendered(w) && TagKey(w) == "env"
      && var c := ClosureFor(w, ConfigRank);
         c.errs == [] && c.specs == map["Config" := TypeSpec("Config", Config)]
         && AllViolations(c.specs, c.specs.Keys, "env", lib) == multiset{"Config.Foo: missing tag \"env\""}
  {
    ConfigIndex();
    var w := EnvWorld(render, lib, exec);
    var rootDef := render(TypeSpec("Config", Config)).value;
    ConfigClosure(render, rootDef);
    var c := ClosureFor(w, ConfigRank);
    assert c.specs == map["Config" := TypeSpec("Config", Config)];
    ConfigFooMissing("env", lib);
    var m := "Config.Foo: missing tag \"env\"";
    assert "Config.Foo: missing tag \"" + "env" + "\"" == m;
    assert TagViolations(c.specs["Config"], "env", lib) == [m];
    SingleDeclViolations(c.specs, "Config", "env", lib);
    assert multiset([m]) == multiset{m};
  }

  /**
   * `valfile -p dir -t Config -env` with `Foo` untagged stops at the tag check with the
   * one message `Config.Foo: missing tag "env"`, before the program is generated.
   */
  lemma MissingEnvTagRun<T>(render: Renderer, lib: TagLibrary<T>, exec: ExecResult)
    requires render(TypeSpec("Config", Config)).Ok?
    ensures Index(ConfigFiles) == ConfigPkg && Ranked(ConfigPkg, ConfigRank)
    ensures var w := EnvWorld(render, lib, exec);
      && Gate(w, ConfigRank) == BadTags
      && RootRendered(w)
      && var c := ClosureFor(w, ConfigRank);
         AllViolations(c.specs, c.specs.Keys, TagKey(w), w.lib) == multiset{"Config.Foo: missing tag \"env\""}
  {
    ConfigViolations(render, lib, exec);
    var w := EnvWorld(render, lib, exec);
    var c := ClosureFor(w, ConfigRank);
    ConfigFooMissing("env", lib);
    assert "Config" in c.specs && TagViolations(c.specs["Config"], TagKey(w), w.lib) != [];
  }

  lemma SingleDeclViolations<T>(specs: map<string, TypeSpec>, n: string, key: string, lib: TagLibrary<T>)
    requires specs.Keys == {n}
    ensures AllViolations(specs, specs.Keys, key, lib) == multiset(TagViolations(specs[n], key, lib))
  {
    AllViolationsTake(specs, specs.Keys, n, key, lib);
    assert specs.Keys - {n} == {};
  }

  /** `type Config struct { Foo Bar }` with `Bar` declared nowhere. */
  const Dangling := Struct([Field(["Foo"], Ident("Bar"), Some("`env:\"FOO\"`"))])
  const DanglingPkg: Package := map["Config" := Dangling]
  const DanglingFiles: Files := [[Object(Typ, "Config", Dangling)]]

  lemma DanglingIndex()
    ensures Index(DanglingFiles) == DanglingPkg
  {
    assert DanglingFiles[1..] == [];
    assert DanglingFiles[0][1..] == [];
    assert FileIndex(DanglingFiles[0]) == map["Config" := Dangling];
    assert Index(DanglingFiles) == Index([]) + FileIndex(DanglingFiles[0]);
  }

  /** The walk from `Config` meets `Bar` and reports it as undefined. */
  lemma DanglingClosure(render: Renderer, rootDef: string)
    ensures Ranked(DanglingPkg, ConfigRank)
    ensures ClosureOf(DanglingPkg, render, ConfigRank, "Config", rootDef).errs == [UndefinedType("Bar")]
  {
    assert Idents(Dangling) == {"Bar"} by {
      assert "Bar" in Idents(Dangling.fields[0].typ);
    }
    var seed := Seed(TypeSpec("Config", Dangling), rootDef);
    assert !IsPrimitive("Bar");
    assert FindType(DanglingPkg, "Bar") == None;
    var after := seed.(errs := [UndefinedType("Bar")]);
    assert Walk(DanglingPkg, render, ConfigRank, 0, Ident("Bar"), seed) == after;
    assert Dangling.fields[..1][..0] == [];
    assert Dangling.fields[..1] == Dangling.fields;
  }

  /** The undefined `Bar` stops the run before the tag check, as `undefined type: Bar`. */
  lemma UndefinedTypeRun<T>(render: Renderer, lib: TagLibrary<T>, exec: ExecResult)
    requires render(TypeSpec("Config", Dangling)).Ok?
    ensures Index(DanglingFiles) == DanglingPkg && Ranked(DanglingPkg, ConfigRank)
    ensures var w := World(Ok(Params("dir", "Config", "", true, false)), Ok(DanglingFiles), "main",
                           render, lib, Loaded, None, exec);
      && Gate(w, ConfigRank) == UndefinedTypes
      && ClosureFor(w, ConfigRank).errs == [UndefinedType("Bar")]
  {
    DanglingIndex();
    DanglingClosure(render, render(TypeSpec("Config", Dangling)).value);
  }

  /**
   * `type Tree struct { Kids []Tree }` beside `Config`: a cycle the root never reaches needs
   * no rank, and the closure of `Config` is still the root alone.
   */
  const Tree := Struct([Field(["Kids"], Array(Ident("Tree")), None)])
  const TreePkg: Package := map["Config" := Config, "Tree" := Tree]

  /** The package's one file, declaring `Tree`. */
  const TreeFiles: Files := [[Object(Typ, "Tree", Tree)]]

  /**
   * `valfile -p dir -t Tree` with neither `-f` nor `-env`, over a package whose root type is
   * self-referential: the run stops at the parameters before any walk, so no rank is needed.
   */
  lemma CyclicRootMissingInputRun<T>(render: Renderer, lib: TagLibrary<T>, exec: ExecResult)
    ensures var w := World(Ok(Defaults.(packageDir := "dir", typeName := "Tree")), Ok(TreeFiles), "main",
                           render, lib, Loaded, None, exec);
      && RankedFor(w, map[])
      && Gate(w, map[]) == BadParameters
      && ParsedParams(w.flags) == Err(MissingInputFile)
  {
  }

  lemma UnreachableCycle(render: Renderer, rootDef: string)
    ensures Ranked(TreePkg, ConfigRank)
    ensures ClosureOf(TreePkg, render, ConfigRank, "Config", rootDef) == Seed(TypeSpec("Config", Config), rootDef)
  {
    assert Idents(Config) == {"string"} by {
      assert "string" in Idents(Config.fields[0].typ);
    }
    assert IsPrimitive("string") && "string" !in TreePkg;
    var seed := Seed(TypeSpec("Config", Config), rootDef);
    assert Walk(TreePkg, render, ConfigRank, 0, Ident("string"), seed) == seed;
    assert Config.fields[..1][..0] == [];
    assert Config.fields[..1] == Config.fields;
  }
}

=== FILE: tagphase.dfy ===
/**
 * The tag-check phase of `run`: every collected type declaration is checked against the tag
 * key of the input format. The declarations are taken in the order `sortedKeys` returns,
 * which despite its name is the map's iteration order and so unspecified: only the multiset
 * of violations is determined.
 */
module TagPhase {
  import opened Wrappers
  import opened GoTypes
  import opened Tags
  import opened FileFormat

  /** The struct tag key the generated program decodes with, per input format. */
  function ExpectedTagKey(format: InputType): (key: string)
    ensures key == "env" <==> format == ENV || format == DOTENV
    ensures key == "json" <==> format == JSON || format == JSONNET
    ensures key == "toml" <==> format == TOML
    ensures key == "yaml" <==> format == YAML
    ensures key == "hcl" <==> format == HCL
  {
    match format
    case ENV => "env"
    case DOTENV => "env"
    case TOML => "toml"
    case JSON => "json"
    case YAML => "yaml"
    case JSONNET => "json"
    case HCL => "hcl"
  }

  /** No element of `s` occurs twice. */
  predicate Distinct<K(==)>(s: seq<K>) {
    forall i, j :: 0 <= i < j < |s| ==> s[i] != s[j]
  }

  /** `sortedKeys`: every key of `m` exactly once, in an order the map chooses. */
  method SortedKeys<K, V>(m: map<K, V>) returns (keys: seq<K>)
    ensures Distinct(keys)
    ensures forall k :: k in keys <==> k in m
    ensures |keys| == |m|
  {
    keys := [];
    var rest := m.Keys;
    while rest != {}
      invariant Distinct(keys)
      invariant forall k :: k in m <==> k in keys || k in rest
      invariant forall k :: k in keys ==> k !in rest
      invariant |keys| + |rest| == |m|
      decreases |rest|
    {
      var k :| k in rest;
      keys := keys + [k];
      rest := rest - {k};
    }
  }

  /** The violations of the declarations named by `order`, concatenated in that order. */
  function ViolationsInOrder<T>(specs: map<string, TypeSpec>, order: seq<string>, key: string, lib: TagLibrary<T>): seq<string>
    requires forall i :: 0 <= i < |order| ==> order[i] in specs
  {
    if order == [] then []
    else
      var last := |order| - 1;
      ViolationsInOrder(specs, order[..last], key, lib) + TagViolations(specs[order[last]], key, lib)
  }

  /** The violations of the declarations named in `names`, as a multiset: no order among them. */
  ghost function AllViolations<T>(specs: map<string, TypeSpec>, names: set<string>, key: string, lib: TagLibrary<T>): multiset<string>
    requires names <= specs.Keys
    decreases |names|
  {
    if names == {} then multiset{}
    else
      var n :| n in names;
      multiset(TagViolations(specs[n], key, lib)) + AllViolations(specs, names - {n}, key, lib)
  }

  /** Whichever name is taken first, the multiset of violations is the same. */
  lemma {:induction false} AllViolationsTake<T>(specs: map<string, TypeSpec>, names: set<string>, n: string, key: string, lib: TagLibrary<T>)
    requires names <= specs.Keys && n in names
    ensures AllViolations(specs, names, key, lib) ==
      multiset(TagViolations(specs[n], key, lib)) + AllViolations(specs, names - {n}, key, lib)
    decreases |names|
  {
    var m :| m in names && AllViolations(specs, names, key, lib) ==
      multiset(TagViolations(specs[m], key, lib)) + AllViolations(specs, names - {m}, key, lib);
    if m != n {
      AllViolationsTake(specs, names - {m}, n, key, lib);
      AllViolationsTake(specs, names - {n}, m, key, lib);
      assert names - {m} - {n} == names - {n} - {m};
    }
  }

  /** Any order that names each declaration once yields, as a multiset, all of their violations. */
  lemma {:induction false} ViolationsPermutation<T>(specs: map<string, TypeSpec>, order: seq<string>, names: set<string>, key: string, lib: TagLibrary<T>)
    requires names <= specs.Keys
    requires Distinct(order) && forall n :: n in order <==> n in names
    ensures forall i :: 0 <= i < |order| ==> order[i] in specs
    ensures multiset(ViolationsInOrder(specs, order, key, lib)) == AllViolations(specs, names, key, lib)
  {
    if order != [] {
      var last := |order| - 1;
      var init := order[..last];
      forall n
        ensures n in init <==> n in names - {order[last]}
      {
        if n in init {
          var i :| 0 <= i < last && init[i] == n;
          assert order[i] == n;
        }
        if n in names - {order[last]} {
          var i :| 0 <= i < |order| && order[i] == n;
          assert init[i] == n;
        }
      }
      ViolationsPermutation(specs, init, names - {order[last]}, key, lib);
      AllViolationsTake(specs, names, order[last], key, lib);
    }
  }

  /** The concatenation is empty exactly when every named declaration passes on its own. */
  lemma {:induction false} ViolationsInOrderEmpty<T>(specs: map<string, TypeSpec>, order: seq<string>, key: string, lib: TagLibrary<T>)
    requires forall i :: 0 <= i < |order| ==> order[i] in specs
    ensures ViolationsInOrder(specs, order, key, lib) == [] <==>
      forall i :: 0 <= i < |order| ==> TagViolations(specs[order[i]], key, lib) == []
  {
    if order != [] {
      var last := |order| - 1;
      ViolationsInOrderEmpty(specs, order[..last], key, lib);
      assert forall i :: 0 <= i < last ==> order[..last][i] == order[i];
    }
  }

  /**
   * The phase as `run` performs it: nothing when tag checking is off, otherwise the violations
   * of each collected declaration in the order `sortedKeys` gave, which names each exactly once.
   */
  method CheckAllTags<T>(specs: map<string, TypeSpec>, noTagCheck: bool, key: string, lib: TagLibrary<T>)
    returns (errs: seq<string>, keys: seq<string>)
    ensures noTagCheck ==> errs == []
    ensures !noTagCheck ==> Distinct(keys) && (forall n :: n in keys <==> n in specs)
    ensures !noTagCheck ==> errs == ViolationsInOrder(specs, keys, key, lib)
    ensures !noTagCheck ==> multiset(errs) == AllViolations(specs, specs.Keys, key, lib)
    ensures errs == [] <==> noTagCheck || forall n :: n in specs ==> TagViolations(specs[n], key, lib) == []
  {
    errs := [];
    keys := [];
    if noTagCheck {
      return;
    }
    keys := SortedKeys(specs);
    for i := 0 to |keys|
      invariant errs == ViolationsInOrder(specs, keys[..i], key, lib)
    {
      var e := CheckMarshalingTags(specs[keys[i]], key, lib);
      assert keys[..i + 1][..i] == keys[..i];
      errs := errs + e;
    }
    assert keys[..|keys|] == keys;
    ViolationsPermutation(specs, keys, specs.Keys, key, lib);
    ViolationsInOrderEmpty(specs, keys, key, lib);
    if errs != [] {
      var i :| 0 <= i < |keys| && TagViolations(specs[keys[i]], key, lib) != [];
      assert keys[i] in specs;
    }
  }

  /**
   * `type Config struct { Foo string }` read from any format is refused for its untagged
   * field, under that format's key: `env`, `json` for both JSON and Jsonnet, `toml`, `yaml`, `hcl`.
   */
  lemma UntaggedConfigPerFormat<T>(format: InputType, lib: TagLibrary<T>)
    ensures var config := TypeSpec("Config", Struct([Field(["Foo"], Ident("string"), None)]));
      TagViolations(config, ExpectedTagKey(format), lib) ==
        ["Config.Foo: missing tag \"" + ExpectedTagKey(format) + "\""]
    ensures format == JSONNET ==> ExpectedTagKey(format) == "json"
  {
    ConfigFooMissing(ExpectedTagKey(format), lib);
  }
}

=== FILE: tags.dfy ===
/**
 * `checkMarshalingTags`: for a struct declaration, one pass over its fields that reports
 * every field whose tag lacks a non-empty entry for the expected key.
 *
 * The three library calls it makes (`strconv.Unquote`, `structtag.Parse`, `Tags.Get`) are
 * parameters: `TagLibrary<T>` holds their outcomes, with `T` standing for a parsed tag set.
 */
module Tags {
  import opened Wrappers
  import opened GoTypes

  datatype TagLibrary<!T> = TagLibrary(
    unquote: string -> Result<string, string>,   // strconv.Unquote: the tag text, or the error text
    parse: string -> Result<T, string>,          // structtag.Parse
    get: (T, string) -> Result<string, string>)  // Tags.Get(key): the entry's name, or the error text

  /** The text of the error `Tags.Get` returns for a key that is not in the tag. */
  const TagNotExist := "tag does not exist"

  /** `%q` of a tag key; the keys used here need no escaping. */
  function Quote(s: string): string {
    "\"" + s + "\""
  }

  function MissingTag(key: string): string {
    "missing tag " + Quote(key)
  }

  function EmptyTag(key: string): string {
    "tag " + Quote(key) + " is empty"
  }

  /** The name a field is reported under: its first name, or the type name of an embedded field. */
  function FieldName(f: Field): string {
    if |f.names| > 0 then f.names[0]
    else if f.typ.Ident? then f.typ.name
    else ""
  }

  /** `Type.Field: ` */
  function Prefix(typeName: string, f: Field): string {
    typeName + "." + FieldName(f) + ": "
  }

  /** The tag text handed to `structtag.Parse`: `strconv.Unquote` yields "" when it fails. */
  function TagContent<T>(raw: string, lib: TagLibrary<T>): string {
    match lib.unquote(raw)
    case Ok(content) => content
    case Err(_) => ""
  }

  /** The messages one field contributes, in the order they are appended. */
  function FieldViolations<T>(typeName: string, f: Field, key: string, lib: TagLibrary<T>): seq<string> {
    var prefix := Prefix(typeName, f);
    if f.tag.None? || f.tag.value == "" then [prefix + MissingTag(key)]
    else
      var raw := f.tag.value;
      var unquoting := match lib.unquote(raw)
        case Err(err) => [prefix + "unquoting tag: " + err]
        case Ok(_) => [];
      match lib.parse(TagContent(raw, lib))
      case Err(err) => unquoting + [prefix + "parsing struct tags: " + err]
      case Ok(tags) =>
        match lib.get(tags, key)
        case Err(err) =>
          if err == TagNotExist then unquoting + [prefix + MissingTag(key)]
          else unquoting + [prefix + "getting tag " + Quote(key) + ": " + err]
        case Ok(name) =>
          if name == "" then unquoting + [prefix + EmptyTag(key)] else unquoting
  }

  /** The messages of the fields `fs`, in field order. */
  function FieldsViolations<T>(typeName: string, fs: seq<Field>, key: string, lib: TagLibrary<T>): seq<string> {
    if fs == [] then []
    else FieldsViolations(typeName, fs[..|fs| - 1], key, lib) + FieldViolations(typeName, fs[|fs| - 1], key, lib)
  }

  /** What `checkMarshalingTags(t, key)` returns. */
  function TagViolations<T>(t: TypeSpec, key: string, lib: TagLibrary<T>): seq<string> {
    if t.typ.Struct? then FieldsViolations(t.name, t.typ.fields, key, lib) else []
  }

  /**
   * A field passes when it has a non-empty tag that unquotes, parses, and holds the
   * key with a non-empty name.
   */
  predicate FieldTagOk<T>(f: Field, key: string, lib: TagLibrary<T>) {
    && f.tag.Some? && f.tag.value != ""
    && lib.unquote(f.tag.value).Ok?
    && var parsed := lib.parse(lib.unquote(f.tag.value).value);
       parsed.Ok? && lib.get(parsed.value, key).Ok? && lib.get(parsed.value, key).value != ""
  }

  /**
   * One iteration of `checkMarshalingTags`' loop: the messages `addErrf` appends for field `f`,
   * each `continue` of the source being a `return` here.
   */
  method CheckField<T>(typeName: string, f: Field, expectTag: string, lib: TagLibrary<T>) returns (errs: seq<string>)
    ensures errs == FieldViolations(typeName, f, expectTag, lib)
  {
    var fieldName := "";
    if |f.names| > 0 {
      fieldName := f.names[0];
    } else if f.typ.Ident? {
      fieldName := f.typ.name;
    }
    var prefix := typeName + "." + fieldName + ": ";
    if f.tag.None? || f.tag.value == "" {
      return [prefix + MissingTag(expectTag)];
    }
    errs := [];
    var unquoted := lib.unquote(f.tag.value);
    var tagContent := "";
    if unquoted.Err? {
      errs := errs + [prefix + "unquoting tag: " + unquoted.error];
    } else {
      tagContent := unquoted.value;
    }
    var tags := lib.parse(tagContent);
    if tags.Err? {
      return errs + [prefix + "parsing struct tags: " + tags.error];
    }
    var tag := lib.get(tags.value, expectTag);
    if tag.Err? {
      if tag.error == TagNotExist {
        return errs + [prefix + MissingTag(expectTag)];
      }
      return errs + [prefix + "getting tag " + Quote(expectTag) + ": " + tag.error];
    }
    if tag.value == "" {
      return errs + [prefix + EmptyTag(expectTag)];
    }
  }

  /** `checkMarshalingTags`: the loop over the fields, appending as it goes. */
  method CheckMarshalingTags<T>(t: TypeSpec, expectTag: string, lib: TagLibrary<T>) returns (errs: seq<string>)
    ensures errs == TagViolations(t, expectTag, lib)
  {
    if !t.typ.Struct? {
      return [];
    }
    var fields := t.typ.fields;
    errs := [];
    for i := 0 to |fields|
      invariant errs == FieldsViolations(t.name, fields[..i], expectTag, lib)
    {
      assert fields[..i + 1][..i] == fields[..i];
      var own := CheckField(t.name, fields[i], expectTag, lib);
      errs := errs + own;
    }
    assert fields[..|fields|] == fields;
  }

  /**
   * Per field: every message is prefixed `Type.Field: `; there is none exactly when the tag
   * passes; there are at most two, and two only when the tag failed to unquote.
   */
  lemma FieldViolationsShape<T>(typeName: string, f: Field, key: string, lib: TagLibrary<T>)
    ensures var v := FieldViolations(typeName, f, key, lib);
      && (forall m :: m in v ==> Prefix(typeName, f) <= m)
      && (v == [] <==> FieldTagOk(f, key, lib))
      && |v| <= 2
      && (|v| == 2 ==> f.tag.Some? && f.tag.value != "" && lib.unquote(f.tag.value).Err?)
  {
  }

  lemma {:induction false} FieldsViolationsEmpty<T>(typeName: string, fs: seq<Field>, key: string, lib: TagLibrary<T>)
    ensures FieldsViolations(typeName, fs, key, lib) == [] <==> forall i :: 0 <= i < |fs| ==> FieldTagOk(fs[i], key, lib)
  {
    if fs != [] {
      var last := |fs| - 1;
      var a := FieldsViolations(typeName, fs[..last], key, lib);
      var b := FieldViolations(typeName, fs[last], key, lib);
      assert FieldsViolations(typeName, fs, key, lib) == a + b;
      assert a + b == [] <==> a == [] && b == [];
      FieldsViolationsEmpty(typeName, fs[..last], key, lib);
      FieldViolationsShape(typeName, fs[last], key, lib);
      assert forall i :: 0 <= i < last ==> fs[..last][i] == fs[i];
    }
  }

  /** A declaration passes the check exactly when it is not a struct or every field's tag passes. */
  lemma TagViolationsEmptyIff<T>(t: TypeSpec, key: string, lib: TagLibrary<T>)
    ensures TagViolations(t, key, lib) == [] <==>
      (t.typ.Struct? ==> forall i :: 0 <= i < |t.typ.fields| ==> FieldTagOk(t.typ.fields[i], key, lib))
  {
    if t.typ.Struct? {
      FieldsViolationsEmpty(t.name, t.typ.fields, key, lib);
    }
  }

  lemma {:induction false} FieldsViolationsNamed<T>(typeName: string, fs: seq<Field>, key: string, lib: TagLibrary<T>)
    ensures forall m :: m in FieldsViolations(typeName, fs, key, lib) ==>
      exists i :: 0 <= i < |fs| && Prefix(typeName, fs[i]) <= m
  {
    if fs != [] {
      var last := |fs| - 1;
      FieldsViolationsNamed(typeName, fs[..last], key, lib);
      FieldViolationsShape(typeName, fs[last], key, lib);
      forall m | m in FieldsViolations(typeName, fs, key, lib)
        ensures exists i :: 0 <= i < |fs| && Prefix(typeName, fs[i]) <= m
      {
        if m in FieldsViolations(typeName, fs[..last], key, lib) {
          var i :| 0 <= i < last && Prefix(typeName, fs[..last][i]) <= m;
          assert fs[..last][i] == fs[i];
        } else {
          assert Prefix(typeName, fs[last]) <= m;
        }
      }
    }
  }

  /** Every message names the type and one of its fields: `Type.Field: ...`. */
  lemma ViolationsNameAField<T>(t: TypeSpec, key: string, lib: TagLibrary<T>)
    ensures forall m :: m in TagViolations(t, key, lib) ==>
      t.typ.Struct? && exists i :: 0 <= i < |t.typ.fields| && Prefix(t.name, t.typ.fields[i]) <= m
  {
    if t.typ.Struct? {
      FieldsViolationsNamed(t.name, t.typ.fields, key, lib);
    }
  }

  lemma {:induction false} UntaggedFieldsMissing<T>(typeName: string, fs: seq<Field>, key: string, lib: TagLibrary<T>)
    requires forall i :: 0 <= i < |fs| ==> fs[i].tag.None?
    ensures FieldsViolations(typeName, fs, key, lib) ==
      seq(|fs|, i requires 0 <= i < |fs| => Prefix(typeName, fs[i]) + MissingTag(key))
  {
    if fs != [] {
      var last := |fs| - 1;
      UntaggedFieldsMissing(typeName, fs[..last], key, lib);
    }
  }

  /**
   * A struct whose fields carry no tags at all gets exactly one `missing tag "k"` per
   * field, in field order, whatever the tag library does.
   */
  lemma UntaggedStruct<T>(t: TypeSpec, key: string, lib: TagLibrary<T>)
    requires t.typ.Struct? && forall i :: 0 <= i < |t.typ.fields| ==> t.typ.fields[i].tag.None?
    ensures TagViolations(t, key, lib) ==
      seq(|t.typ.fields|, i requires 0 <= i < |t.typ.fields| => Prefix(t.name, t.typ.fields[i]) + MissingTag(key))
  {
    UntaggedFieldsMissing(t.name, t.typ.fields, key, lib);
  }

  /** `type Config struct { Foo string }` checked for key `k`: `Config.Foo: missing tag "k"`. */
  lemma ConfigFooMissing<T>(key: string, lib: TagLibrary<T>)
    ensures TagViolations(TypeSpec("Config", Struct([Field(["Foo"], Ident("string"), None)])), key, lib)
      == ["Config.Foo: missing tag \"" + key + "\""]
  {
    var foo := Field(["Foo"], Ident("string"), None);
    UntaggedStruct(TypeSpec("Config", Struct([foo])), key, lib);
    assert Prefix("Config", foo) + MissingTag(key) == "Config.Foo: missing tag \"" + key + "\"";
  }
}

=== FILE: wrappers.dfy ===
/** Option and Result, used wherever the Go code returns a nil pointer or an error value. */
module Wrappers {

  datatype Option<+T> = None | Some(value: T)

  datatype Result<+T, +E> = Ok(value: T) | Err(error: E)
}
